=== FILE: README.md ===
# MeetLex scheduling core, modelled in Dafny

MeetLex is a chatbot back end for booking meetings. The chat platform sends it one
turn at a time: the ScheduleMeeting intent's slots (Person, MeetingType, Date, Time,
Duration and three more), an invocation source, and the session attributes. The
session carries the `bookingMap`, which lists each date's open half hours.

This project models the part of the handler that makes decisions:

- **The half-hour grid.** Bookable start times run from 10:00 to 16:30. The model
  covers `increment_time_by_thirty_mins`, which moves a time forward by 30 minutes.
- **Day availability.** `is_available` asks whether a 30- or 60-minute meeting fits
  an open day. `get_availabilities_for_duration` walks the grid from 10:00 to 17:00.
  `get_availabilities` generates a day: fixed on Wednesday and Friday, random on
  Monday, empty otherwise.
- **Validation and speech.** The slot checks of `validate_schedule_meeting`. The
  12-hour spoken form `build_time_output_string`. The sentence that offers start
  times, `build_available_time_string`. Python's `int()` and `str.split`, as far as
  these rely on them.
- **The `schedule_meeting` code hook turn.** It validates, asks for Person, then
  MeetingType, then Date. It looks up or generates the day. It then either asks
  for another date, hands a fitting time back to the platform, proposes the only
  start time, or offers several.
- **The fulfillment.** It takes the booked half hours off the day and closes the
  conversation.
- **`dispatch`.**

Time values are pairs (hour, on the half hour). Their stored text has no padding
(`10:00`, `16:30`), and `TimeGrid.FormatInjective` proves that no two times share
a text. So the ledger holds `Time` values, and a lookup by text is a lookup by time.
Each Python exception is a `Failure` of a `Result`.

Three things enter a turn as the `Env` parameter, and the model leaves them open:

- `get_duration`, which neither source file defines;
- what `dateutil` and `datetime` report about a date text;
- the random numbers behind Monday.

The source has names that are undefined where they are used. The model reads them
as follows:

- `date` at helpers.py:54 is the Date slot.
- `date` at helpers.py:136 and :196 is `meeting_date`. So the fulfillment writes the
  day back under the key it read.
- In `validate_schedule_meeting` (validations.py:126-156), the helper is called with
  the Duration slot as its first argument. It then tests `meeting_type and not
  meeting_duration`. The model reads this test as: a MeetingType is given
  but no Duration. It also reads `meeting_date` at validations.py:148 as
  the Date slot.
- `meeting_type` at validations.py:203, inside `build_options`, is the caller's
  MeetingType slot.
- helpers.py:19 imports `eliacit_slot`, but :57, :66, :75, :84, :105 and :142 call
  `elicit_slot`. As written, every reply that elicits a slot would raise NameError.
  The model reads `elicit_slot` as the imported builder.
- validations.py has no import statements, and `from validations import *` in
  helpers.py does not give that module any names. The model reads it as importing
  `math`, `random`, `dateutil.parser` and `datetime`. As written, three places would
  raise NameError instead:
  - `get_availabilities` on its first line (validations.py:51), for every date;
  - `isvalid_date` (validations.py:79), which its `except ValueError` does not catch;
  - the Time check of every five-character text with one colon, at `math.isnan`
    (validations.py:137).
  `Availability.GenerateFor`, `Validation.ValidateDate` and `Validation.ValidateTime`
  follow the imported reading.

Some behaviours of the code are easy to miss, and the model keeps each of them:

- **Day generator.** `get_availabilities` returns 10:00, 16:00 and 16:30 on Wednesday
  and Friday, a random subset of the grid on Monday, and nothing on any other day
  (validations.py:51-74).
- **Durations.** `is_available` raises for any duration other than 30 or 60
  (validations.py:96-97). `get_duration` is not defined in either file.
- **Fulfillment on an unseen date.** `booking_map[meeting_date]` raises `KeyError` for
  a date with no entry (helpers.py:188). An empty entry is skipped: the `if` at
  helpers.py:189 fails and the `else` branch only logs (helpers.py:198-201).
- **Committing twice.** `list.remove` raises `ValueError` on a time that is already
  gone (helpers.py:191).
- **Link, address and phone.** The InvitationLink, Address and Phone questions
  (helpers.py:155-179) come after unconditional returns, cannot be reached, and are
  not valid Python.

The model has two versions of the handler. `Dialog.ScheduleMeetingAsWritten` runs the
fulfillment as written, with the readings above, so it frees only the start half hour
(see Findings).
`Dialog.ScheduleMeeting` and `Dialog.Dispatch` use the corrected fulfillment,
`Dialog.Fulfill`.

## Model

| member | source | states |
|---|---|---|
| TimeGrid.Succ | validations.py:25-27 | the next time is exactly 30 minutes later and the next half-hour position |
| TimeGrid.Grid | validations.py:105-113 | the walk's fourteen start times run from 10:00, each the successor of the one before; the last one's successor is 17:00, and membership is exactly being on the grid |
| TimeGrid.IncrementText | validations.py:25-27 | the text increment raises (ValueError) exactly when the text does not unpack into two parts that `int()` reads |
| TimeGrid.IncrementFormat | validations.py:25-27 | on every stored time text, the increment yields the successor's text: H:00 becomes H:30 and H:30 becomes (H+1):00 |
| TimeGrid.FormatInjective | validations.py:61-72 | two times have the same stored text only if they are the same time |
| TimeGrid.FormatIn | validations.py:91 | a time's text is among the stored texts exactly when the time is among the stored times |
| Text.ParseIntReads | validations.py:4-8 | text `int()` accepts ends, once stripped, in a digit; a negative result was written with a minus sign; plain digits read as their decimal value |
| Text.SplitTwo | validations.py:134 | when the unpacking succeeds the text is the first part, the separator and the second part, and neither part holds the separator |
| Text.ParseIntString | validations.py:4-8 | `int()` reads back any integer that `'{}'.format` wrote |
| Text.ParseDecimal | validations.py:4-8 | `int()` of an unpadded natural number's text is that number |
| Text.ParseTwoDigits | validations.py:134-136 | `int()` of a two-digit text is its two-digit value |
| Text.DecimalValueOfString | validations.py:27 | the digits that `'{}'.format(n)` writes denote n |
| Text.SplitTwoSpec | validations.py:134 | `a, b = s.split(sep)` gives (a, b) exactly when s is a, sep, b with no other separator |
| Text.SplitTwoOccurrences | validations.py:134 | the two-way unpacking succeeds exactly when the separator occurs once |
| Availability.IsAvailable | validations.py:85-97 | a 30- or 60-minute meeting fits exactly when every half hour it spans is open; any other duration raises |
| Availability.IsAvailableText | validations.py:85-97 | on raw text, 30 minutes means membership of the text and durations other than 30 and 60 raise; a 60-minute check raises (ValueError) exactly when the text cannot be incremented, and otherwise holds exactly when the text and its increment are both open |
| Availability.IsAvailableTextAgrees | validations.py:85-97 | on a stored time the text check and the time check agree, for every duration |
| Availability.IsAvailableTextFound | validations.py:90-94 | a text the check accepts is the text of an open time that can host the meeting |
| Availability.Walk | validations.py:104-115 | from any start up to 17:00, the walk returns, in grid order and without repeats, exactly the times that are open and, for durations other than 30, followed by an open half hour |
| Availability.Filter | validations.py:100-115 | sound and complete: a time is returned exactly when it is on the grid, open and, unless the duration is 30, followed by an open one; results are in grid order with no duplicates |
| Availability.FilterMatchesIsAvailable | validations.py:100-115 | for 30 and 60 minutes the filter returns exactly the grid times `is_available` accepts |
| Availability.WalkFullDayHalf | validations.py:104-115 | on a day with every grid time open, the 30-minute walk from any start keeps every later start |
| Availability.WalkFullDayLonger | validations.py:104-115 | on such a day any longer walk keeps every later start except 16:30 |
| Availability.FilterFullDay | validations.py:100-115 | a fully open day offers all fourteen starts for 30 minutes and all but 16:30 for 60; `Availability.GridListsGrid` shows that `TimeGrid.Grid` lists such a day |
| Availability.FilterLoop | validations.py:104-115 | the source's while loop computes the filter and stops after fourteen steps |
| Availability.MondayFrom | validations.py:54-67 | whatever the draws, Monday's times lie in the hours walked and come in strictly ascending order |
| Availability.MidweekOrdered | validations.py:69-72 | the fixed Wednesday and Friday times are in grid order and bookable |
| Availability.Generate | validations.py:40-74 | Wednesday and Friday give 10:00, 16:00 and 16:30; other days except Monday give nothing; every outcome, Monday's included, is ascending and on the grid |
| Availability.GenerateFor | validations.py:51 | a date that does not parse raises ValueError; any other gives the generated day of its weekday, which is ascending and on the grid |
| Availability.MondayFromDraws | validations.py:54-67 | the draws chosen for a set of half hours make the Monday walk from a given hour yield exactly that set's times from that hour on |
| Availability.MondayRealizes | validations.py:54-67 | every set of grid half hours is a possible Monday |
| Intent.Set | helpers.py:56 | setting a slot changes that slot and no other |
| Validation.ValidateTime | validations.py:130-146 | a length other than 5, a part that is not a number, an hour outside 10..16 or a minute other than 0 and 30 each violate Time with their own message; text of length 5 without exactly one colon raises; passing all four checks is valid |
| Validation.ValidateDate | validations.py:148-154 | valid exactly for a parseable, later, weekday date; an unparseable date, a date not later than today and a weekend date violate Date with their messages; a date that parses but not as `%Y-%m-%d` raises |
| Validation.Validate | validations.py:126-156 | the checks run in order and the first failure wins: the Duration rule, then Time, then Date; valid exactly when all applicable checks pass |
| Validation.GridTextPasses | validations.py:130-146 | every bookable time's stored text passes the Time checks |
| Validation.ClockParts | validations.py:134-136 | the unpacking succeeds exactly when the text has one colon, and then gives `int()` of the text before and after it |
| Validation.ClockPartsOfFormat | validations.py:134-136 | a stored time text unpacks into its hour and minute numbers |
| Validation.PassingTextIsGridTime | validations.py:130-146 | a text passing the Time checks reads as a bookable grid time |
| Formatting.TimeOutput | validations.py:159-168 | raises exactly when the text does not unpack or its hour is not a number; otherwise the spoken time ends in the minute text as written and "p.m." from noon on, "a.m." before |
| Formatting.TimeOutputHour | validations.py:159-168 | after 12 the hour reads back as hour less twelve; noon and midnight are told as 12; any other hour keeps its text verbatim |
| Formatting.TimeOutputOfFormat | validations.py:159-168 | for every time of day, the formatter speaks the stored text as the conventional 12-hour clock reading |
| Formatting.Clock12Injective | validations.py:159-168 | no two bookable times are spoken alike |
| Formatting.Render | validations.py:179-183 | formatting a list succeeds exactly when each entry formats, and then gives each entry's spoken form in order |
| Formatting.RenderFormats | validations.py:179-183 | stored times always format, each as its 12-hour reading |
| Formatting.LeadIsPlenty | validations.py:175-177 | the sentence opens with the "plenty" lead exactly when there are more than three options |
| Formatting.Sentence | validations.py:179-183 | the source's joins give the lead followed by the English list of the named options |
| Formatting.AvailableTimeString | validations.py:171-183 | with two options both are named, with more the first three; the "plenty" lead appears exactly for more than three; a failing option raises ValueError and fewer than two options raise IndexError |
| Formatting.AvailableTimesSpoken | validations.py:171-183 | offering stored times names the first two or three of them on the 12-hour clock |
| Booking.GetOrCreate | helpers.py:94-98 | a stored day is used as stored; a missing one is generated and written back; only generation can raise; no other day changes |
| Booking.GetOrCreateIdempotent | helpers.py:94-98 | a second lookup of the same day finds the stored entry and changes nothing |
| Booking.GetOrCreateWellFormed | helpers.py:94-98 | looking a day up keeps every day in grid order and on the grid |
| Booking.FirstWithText | helpers.py:191 | finds the first position holding the text, or reports that none does |
| Booking.RemoveText | helpers.py:191 | `list.remove` drops the first entry with the text and keeps the rest in order; it raises ValueError exactly when there is no such entry |
| Booking.RemoveAt | helpers.py:191 | dropping one position of an ordered day keeps the order and drops exactly that time |
| Booking.RemoveTextContents | helpers.py:191 | removing a text from an ordered day leaves exactly the other times, in order, one fewer |
| Booking.Commit | helpers.py:189-194 | an unset time raises; committing only the start is one removal; a successful commit had the time stored; every failure is ValueError |
| Booking.CommitStart | helpers.py:191 | committing a stored start succeeds and leaves every other time, in order |
| Booking.CommitBoth | helpers.py:191-194 | committing both half hours needs the successor to be stored, and leaves every time but those two |
| Booking.CommitFrees | helpers.py:189-196 | after a commit the booked time is gone, and its successor too when both are taken; every other time is still open |
| Booking.CommitSucceeds | helpers.py:189-194 | committing a stored time succeeds, and also with its successor when that is stored |
| Booking.CommitOrdered | helpers.py:189-194 | what a commit leaves of an ordered day is still ordered and on the grid |
| Booking.CommitWellFormed | helpers.py:196 | writing the committed day back keeps the ledger well formed |
| Booking.LeavesNoOverlap | helpers.py:189-194 | after a commit, no meeting the day still admits overlaps the booked start, nor its successor when both were taken |
| Dialog.OfferLead | helpers.py:113-120 | the offer opens with "not available" exactly when a time was requested, and otherwise asks what time on the date works |
| Dialog.Offer | helpers.py:122-153 | one start is proposed for confirmation with Time set to it and its 12-hour form; several are offered by eliciting Time with the slots unchanged and the sentence naming the first of them |
| Dialog.Propose | helpers.py:113-120 | the dialog is handed back only when the requested time fits the day; otherwise the start times are offered; the ledger is not touched; only ValueError or the unsupported duration can be raised |
| Dialog.Resolve | helpers.py:92-111 | the day is looked up or generated and written into the session, and the reply never closes |
| Dialog.DialogTurn | helpers.py:51-90 | a failed check clears that slot and elicits it with its message before anything else; then Person, MeetingType and Date are asked for in that order; a turn never closes and only ValueError or an unsupported duration can be raised |
| Dialog.TurnKeepsLedger | helpers.py:92-98 | a turn only adds the day it looked up; stored days are kept and the ledger stays well formed |
| Dialog.DelegatedTimeFits | helpers.py:114-119 | handing the dialog back means all slots passed and the requested time is an open time of the day that fits the meeting |
| Dialog.DayDecides | helpers.py:100-153 | no start time clears Date and Time and elicits Date, exactly then; a requested time that fits is handed back with the slots unchanged; otherwise one start asks for confirmation and two or more elicit Time with the slots unchanged |
| Dialog.ProposeRaisesOnly | helpers.py:113-120 | with a time that passed validation, only an unsupported duration can raise |
| Dialog.ResolveRaisesOnly | helpers.py:92-120 | with a valid date and time, the day's part of the turn raises only for an unsupported duration |
| Dialog.TurnRaisesOnly | helpers.py:51-153 | once validation passes, a turn raises only for a requested time with a meeting type of unsupported duration |
| Dialog.ProposeOutcome | helpers.py:113-153 | an elicitation offers two or more starts with the sentence; a confirmation sets Time to the only start; a fitting requested time is delegated; without one, one start gives a confirmation and two or more an elicitation of Time with the slots unchanged |
| Dialog.ResolveOutcome | helpers.py:92-153 | the same decisions, both ways, in terms of the day as stored after the lookup, and an empty filter exactly when Date is asked for again |
| Dialog.OffersAreTheFittingStarts | helpers.py:141-153 | asking for the time lists, in the sentence, the first of exactly those start times that can host the meeting |
| Dialog.ConfirmsTheOnlyStart | helpers.py:122-139 | asking to confirm means the day has one start time, and Time is set to it |
| Dialog.FulfillWith | helpers.py:187-210 | a missing date raises KeyError; an empty day is left as it is, and its fulfillment succeeds exactly when the time can be spoken; otherwise the day loses the committed times; no other day changes; success always closes |
| Dialog.Book | helpers.py:188-197 | the committed day is written back under its date, an empty one is left alone, and any failure is ValueError |
| Dialog.Speak | helpers.py:208 | an unset time raises AttributeError and a time that does not format raises ValueError |
| Dialog.BookFrees | helpers.py:188-196 | writing the commit back frees exactly the booked half hours and keeps the ledger well formed |
| Dialog.FulfillWithFrees | helpers.py:188-196 | a fulfillment that reaches the removals leaves the day without exactly the booked half hours |
| Dialog.FulfillAsWritten | helpers.py:187-210 | as written, a fulfillment takes only the start half hour off the day |
| Dialog.Sixty | helpers.py:192 | the corrected Duration test: it needs a Duration slot and holds for the text "60" |
| Dialog.SixtyReadsNumber | helpers.py:192 | a Duration slot holding the text of a number passes the corrected test exactly when the number is 60 |
| Dialog.Fulfill | helpers.py:187-210 | as intended, a 60-minute meeting takes both of its half hours off the day, and nothing else |
| Dialog.FulfillSucceeds | helpers.py:188-210 | a fulfillment of a stored time succeeds, and also with its successor when that is stored |
| Dialog.NoDoubleBooking | helpers.py:188-194 | after the intended fulfillment no 30- or 60-minute meeting the day admits overlaps the booked half hours |
| Dialog.ScheduleMeeting | helpers.py:51-210 | a code hook turn never closes and a fulfillment always closes; with the corrected fulfillment a bookable meeting takes exactly its half hours off the day |
| Dialog.ScheduleMeetingAsWritten | helpers.py:51-210 | as written, a code hook turn is the same turn, a fulfillment closes, and a bookable meeting takes only its start half hour off the day |
| Dialog.Dispatch | helpers.py:216-228 | only ScheduleMeeting is served; any other intent raises an error that names it |
| Dialog.SecondHalfHourStaysOpen | helpers.py:192 | booking an hour at 16:00 as written leaves 16:30 bookable; the intended fulfillment does not |

## Left out

- Serialising `bookingMap` to and from JSON (helpers.py:49, :98, :197) is not modelled. The ledger is a Dafny map from the date text to that day's open times.
- Ledger entries hold grid `Time` values, not free strings. Every entry the code can create comes from the generator, which only writes grid times.
- `dateutil` parsing, the comparison with today and the weekday lookup (validations.py:51, :77-82, :148-154) are not modelled. They enter as a `DateInfo` per date text.
- `get_duration` is called at helpers.py:100 and :118 but defined in neither file. It is a parameter that may return any integer. `is_available` raises for anything but 30 and 60, and the model keeps that error.
- `random.random` and `get_random_int` (validations.py:30-37, :57-59) become a draw per hour. `Availability.MondayRealizes` shows that every outcome is reachable.
- The 70% skip probability is not modelled, and neither is the inclusive or exclusive range of `get_random_int`: only which outcomes are possible matters here.
- `build_options` and the response cards (validations.py:186-218; helpers.py:134-138, :148-152) are not modelled. They only fill the card attached to a reply. With `meeting_type` read as the MeetingType slot, the Time branch cannot raise on a stored day: `try_ex` catches the missing key, the grid walk never raises, and `Formatting.RenderFormats` shows that stored times always format.
- The directive builders imported at helpers.py:19 are not modelled. The reply is the `Directive` datatype, and message content types are left out.
- `lambda_handler`, the time zone setting and logging (helpers.py:22-23, :200-201, :234-244) are not modelled: they are I/O.
- The InvitationLink, Address and Phone questions (helpers.py:155-179) are not modelled: that code cannot be reached and does not parse.
- The `formattedTime` attribute is kept. Session attributes other than it and `bookingMap` are not modelled.
- `parse_int` returns `float('nan')` on text `int()` rejects. The model returns `None` instead, and the comparisons in the Time checks read NaN as "not a number".
- `int()` and `str.strip()` are modelled on ASCII only. Unicode digits and Unicode white space are not.
- Dialog.ScheduleMeeting and Dialog.Dispatch use the corrected fulfillment, which also frees the second half hour of a 60-minute meeting. The code as written only frees the start half hour. `Dialog.ScheduleMeetingAsWritten` is the handler as written.
- A missing `sessionAttributes` (helpers.py:48) is not modelled. The session record is always present.

## Findings

| source | as written | input that shows it | evidently intended | confidence | as-written member | corrected member |
|---|---|---|---|---|---|---|
| helpers.py:192 | `if meeting_duration == 60` compares the Duration slot, a string such as "60", with the integer 60, so the test is never true and only the start half hour of a booking is removed | Date 2026-10-14 open at 10:00, 16:00 and 16:30; Time "16:00", Duration "60"; after fulfillment 16:30 is still open and a second meeting can take it | the Duration slot read as a number, so a 60-minute meeting also removes the following half hour | not executed | Dialog.FulfillAsWritten, Dialog.SecondHalfHourStaysOpen | Dialog.Fulfill, Dialog.NoDoubleBooking |

=== FILE: availability.dfy ===
/**
  The availability arithmetic: whether a meeting fits a day's open half
  hours (is_available), which start times can host a duration
  (get_availabilities_for_duration) and the availability generator
  (get_availabilities).
 */
module Availability {
  import opened Wrappers
  import opened Exceptions
  import opened TimeGrid
  import opened Calendar
  import opened Text

  /** In grid order with no time twice; the shape of every ledger entry. */
  predicate StrictlyAscending(ts: seq<Time>) {
    forall i, j :: 0 <= i < j < |ts| ==> Slot(ts[i]) < Slot(ts[j])
  }

  predicate AllOnGrid(ts: seq<Time>) {
    forall i :: 0 <= i < |ts| ==> OnGrid(ts[i])
  }

  /** The `count` consecutive half hours a meeting starting at `t` occupies. */
  function Span(t: Time, count: nat): (r: seq<Time>)
    ensures |r| == count
    ensures forall i :: 0 <= i < count ==> Slot(r[i]) == Slot(t) + i
    decreases count
  {
    if count == 0 then [] else [t] + Span(Succ(t), count - 1)
  }

  /**
    is_available on times: a 30- or 60-minute meeting fits when every half
    hour it spans is open; any other duration raises (validations.py:85-97).
   */
  function IsAvailable(t: Time, duration: int, open: seq<Time>): (r: Result<bool, Exception>)
    ensures duration != 30 && duration != 60 ==> r == Failure(UnsupportedDuration(duration))
    ensures duration == 30 || duration == 60 ==>
              r == Success(forall u :: u in Span(t, duration / 30) ==> u in open)
  {
    assert Span(t, 2) == [t, Succ(t)] by {
      assert Span(t, 2) == [t] + Span(Succ(t), 1);
    }
    if duration == 30 then Success(t in open)
    else if duration == 60 then Success(t in open && Succ(t) in open)
    else Failure(UnsupportedDuration(duration))
  }

  /** is_available as the source runs it, on the raw time text and the stored texts. */
  function IsAvailableText(text: string, duration: int, open: seq<string>): (r: Result<bool, Exception>)
    ensures duration != 30 && duration != 60 ==> r == Failure(UnsupportedDuration(duration))
    ensures duration == 30 ==> r == Success(text in open)
    ensures r.Failure? && duration == 60 ==> r.error == ValueError && IncrementText(text).Failure?
    ensures duration == 60 ==> (r.Failure? <==> IncrementText(text).Failure?)
    ensures duration == 60 && r.Success? ==> r.value == (text in open && IncrementText(text).value in open)
  {
    if duration == 30 then Success(text in open)
    else if duration == 60 then
      var next :- IncrementText(text);
      Success(text in open && next in open)
    else Failure(UnsupportedDuration(duration))
  }

  /** On a stored text the text check and the time check agree. */
  lemma IsAvailableTextAgrees(t: Time, duration: int, open: seq<Time>)
    ensures IsAvailableText(Format(t), duration, Formats(open)) == IsAvailable(t, duration, open)
  {
    IncrementFormat(t);
    FormatIn(t, open);
    FormatIn(Succ(t), open);
  }

  /** A text the check accepts is the text of an open time that can host the meeting. */
  lemma IsAvailableTextFound(text: string, duration: int, open: seq<Time>)
    requires IsAvailableText(text, duration, Formats(open)) == Success(true)
    ensures exists i :: 0 <= i < |open| && Format(open[i]) == text
                        && IsAvailable(open[i], duration, open) == Success(true)
  {
    var i :| 0 <= i < |open| && Formats(open)[i] == text;
    IsAvailableTextAgrees(open[i], duration, open);
  }

  /** The test the grid walk applies: open, and for anything but 30 minutes its successor is open too. */
  predicate Keeps(t: Time, duration: int, open: seq<Time>) {
    t in open && (duration == 30 || Succ(t) in open)
  }

  /** The walk from `t` up to 17:00, keeping the start times that pass `Keeps`. */
  function Walk(t: Time, duration: int, open: seq<Time>): (r: seq<Time>)
    requires Slot(t) <= Slot(Closing)
    ensures forall i :: 0 <= i < |r| ==> Slot(t) <= Slot(r[i]) < Slot(Closing) && Keeps(r[i], duration, open)
    ensures forall u :: Slot(t) <= Slot(u) < Slot(Closing) && Keeps(u, duration, open) ==> u in r
    ensures StrictlyAscending(r)
    decreases Slot(Closing) - Slot(t)
  {
    if t == Closing then []
    else
      var rest := Walk(Succ(t), duration, open);
      if Keeps(t, duration, open) then [t] + rest else rest
  }

  /**
    get_availabilities_for_duration: the start times from 10:00 to 16:30, in
    grid order, that are open and, unless the duration is 30, followed by an
    open half hour (validations.py:100-115).
   */
  function Filter(duration: int, open: seq<Time>): (r: seq<Time>)
    ensures forall u :: u in r <==> OnGrid(u) && Keeps(u, duration, open)
    ensures StrictlyAscending(r) && AllOnGrid(r)
  {
    var r := Walk(Opening, duration, open);
    assert forall u :: OnGrid(u) <==> Slot(Opening) <= Slot(u) < Slot(Closing);
    r
  }

  /** For the durations the source supports, the filter returns exactly the grid times is_available accepts. */
  lemma FilterMatchesIsAvailable(duration: int, open: seq<Time>)
    requires duration == 30 || duration == 60
    ensures forall u :: u in Filter(duration, open) <==> OnGrid(u) && IsAvailable(u, duration, open) == Success(true)
  {
  }

  lemma WalkStep(t: Time, duration: int, open: seq<Time>)
    requires Slot(t) < Slot(Closing)
    ensures Walk(t, duration, open)
         == (if Keeps(t, duration, open) then [t] else []) + Walk(Succ(t), duration, open)
  {
  }

  /** The source's loop itself: fourteen steps from 10:00, stopping at 17:00. */
  method FilterLoop(duration: int, open: seq<Time>) returns (r: seq<Time>, steps: nat)
    ensures r == Filter(duration, open)
    ensures steps == 14
  {
    r := [];
    steps := 0;
    var t := Opening;
    ghost var goal := Walk(Opening, duration, open);
    while t != Closing
      invariant Slot(Opening) <= Slot(t) <= Slot(Closing)
      invariant steps == Slot(t) - Slot(Opening)
      invariant r + Walk(t, duration, open) == goal
      decreases Slot(Closing) - Slot(t)
    {
      WalkStep(t, duration, open);
      var kept: seq<Time> := [];
      if t in open {
        if duration == 30 {
          kept := [t];
        } else if Succ(t) in open {
          kept := [t];
        }
      }
      assert kept == (if Keeps(t, duration, open) then [t] else []);
      ConcatAssoc(r, kept, Walk(Succ(t), duration, open));
      r := r + kept;
      t := Succ(t);
      steps := steps + 1;
    }
    assert Walk(t, duration, open) == [];
  }

  /** `g` lists the fourteen bookable start times in grid order. */
  predicate ListsGrid(g: seq<Time>) {
    |g| == 14 && forall k :: 0 <= k < 14 ==> Slot(g[k]) == Slot(Opening) + k
  }

  /** On a day with every half hour open, the half-hour walk from the i-th start keeps every later start. */
  lemma {:induction false} WalkFullDayHalf(t: Time, i: nat, g: seq<Time>)
    requires ListsGrid(g) && i <= 14 && Slot(t) == Slot(Opening) + i
    ensures Walk(t, 30, g) == g[i..14]
    decreases 14 - i
  {
    if i < 14 {
      assert t != Closing;
      WalkIn(t, i, g);
      WalkStep(t, 30, g);
      WalkFullDayHalf(Succ(t), i + 1, g);
      SliceCons(g, i, 14);
    } else {
      SlotInjective(t, Closing);
    }
  }

  /** On the same day a longer walk keeps every later start except the last, 16:30. */
  lemma {:induction false} WalkFullDayLonger(t: Time, i: nat, duration: int, g: seq<Time>)
    requires ListsGrid(g) && i <= 14 && Slot(t) == Slot(Opening) + i && duration != 30
    ensures Walk(t, duration, g) == if i < 13 then g[i..13] else []
    decreases 14 - i
  {
    if i < 13 {
      WalkIn(t, i, g);
      WalkIn(Succ(t), i + 1, g);
      WalkStep(t, duration, g);
      WalkFullDayLonger(Succ(t), i + 1, duration, g);
      SliceCons(g, i, 13);
    } else if i == 13 {
      WalkPastEnd(Succ(t), g);
      WalkStep(t, duration, g);
      WalkFullDayLonger(Succ(t), i + 1, duration, g);
    } else {
      SlotInjective(t, Closing);
    }
  }

  lemma SliceCons<T>(s: seq<T>, i: nat, j: nat)
    requires i < j <= |s|
    ensures s[i..j] == [s[i]] + s[i + 1..j]
  {
  }

  lemma WalkIn(t: Time, i: nat, g: seq<Time>)
    requires ListsGrid(g) && i < 14 && Slot(t) == Slot(Opening) + i
    ensures g[i] == t && t in g
  {
    SlotInjective(g[i], t);
  }

  lemma WalkPastEnd(t: Time, g: seq<Time>)
    requires ListsGrid(g) && Slot(t) == Slot(Closing)
    ensures t !in g
  {
    forall k | 0 <= k < 14
      ensures g[k] != t
    {
      assert Slot(g[k]) < Slot(t);
    }
  }

  /** A fully open day offers every start for half an hour, and every start but 16:30 for an hour. */
  lemma FilterFullDay(g: seq<Time>)
    requires ListsGrid(g)
    ensures Filter(30, g) == g
    ensures Filter(60, g) == g[..13]
  {
    WalkFullDayHalf(Opening, 0, g);
    WalkFullDayLonger(Opening, 0, 60, g);
    assert g[0..14] == g && g[0..13] == g[..13];
  }

  lemma GridListsGrid()
    ensures ListsGrid(Grid())
  {
  }

  /** One Monday hour's random outcome: skipped (70%), or 1, 2, 3 from get_random_int(1, 4). */
  datatype HourDraw = Busy | OnTheHour | OnTheHalfHour | WholeHour

  function DrawnTimes(hour: nat, draw: HourDraw): seq<Time> {
    match draw
    case Busy => []
    case OnTheHour => [Time(hour, false)]
    case OnTheHalfHour => [Time(hour, true)]
    case WholeHour => [Time(hour, false), Time(hour, true)]
  }

  /** The Monday loop over the hours from `hour` to 16, `draw` standing for the random numbers. */
  function MondayFrom(hour: nat, draw: int -> HourDraw): (r: seq<Time>)
    ensures forall i :: 0 <= i < |r| ==> hour <= r[i].hour <= 16
    ensures StrictlyAscending(r)
    decreases 17 - hour
  {
    if hour > 16 then []
    else DrawnTimes(hour, draw(hour)) + MondayFrom(hour + 1, draw)
  }

  /** The fixed half hours of Wednesday and Friday. */
  const MidweekTimes: seq<Time> := [Time(10, false), Time(16, false), Time(16, true)]

  lemma MidweekOrdered()
    ensures StrictlyAscending(MidweekTimes) && AllOnGrid(MidweekTimes)
  {
  }

  /**
    get_availabilities for a weekday: random half hours on Monday, 10:00,
    16:00 and 16:30 on Wednesday and Friday, nothing otherwise
    (validations.py:51-74).
   */
  function Generate(weekday: int, draw: int -> HourDraw): (r: seq<Time>)
    ensures weekday == Wednesday || weekday == Friday ==> r == MidweekTimes
    ensures weekday != Monday && weekday != Wednesday && weekday != Friday ==> r == []
    ensures StrictlyAscending(r) && AllOnGrid(r)
  {
    var monday := if weekday == Monday then MondayFrom(10, draw) else [];
    if weekday == Wednesday || weekday == Friday then
      assert monday == [];
      MidweekOrdered();
      monday + MidweekTimes
    else monday
  }

  /** get_availabilities on a date text: the weekday comes from parsing, which raises on an unparseable date. */
  function GenerateFor(info: DateInfo, draw: int -> HourDraw): (r: Result<seq<Time>, Exception>)
    ensures r.Failure? <==> info.Unparseable?
    ensures r.Failure? ==> r.error == ValueError
    ensures r.Success? ==> StrictlyAscending(r.value) && AllOnGrid(r.value)
    ensures info.Parsed? ==> r == Success(Generate(info.weekday, draw))
  {
    match info
    case Unparseable => Failure(ValueError)
    case Parsed(_, _, weekday) => Success(Generate(weekday, draw))
  }

  /** The draws that make Monday's outcome the half hours of `wanted`. */
  function DrawsFor(wanted: set<Time>): int -> HourDraw {
    (h: int) =>
      if h < 0 then Busy
      else if Time(h, false) in wanted && Time(h, true) in wanted then WholeHour
      else if Time(h, false) in wanted then OnTheHour
      else if Time(h, true) in wanted then OnTheHalfHour
      else Busy
  }

  lemma {:induction false} MondayFromDraws(wanted: set<Time>, hour: nat)
    ensures forall u :: u in MondayFrom(hour, DrawsFor(wanted)) <==> u in wanted && hour <= u.hour <= 16
    decreases 17 - hour
  {
    if hour <= 16 {
      MondayFromDraws(wanted, hour + 1);
    }
  }

  /** Every set of grid half hours is a possible Monday outcome. */
  lemma MondayRealizes(wanted: set<Time>)
    ensures forall u :: u in Generate(Monday, DrawsFor(wanted)) <==> u in wanted && OnGrid(u)
  {
    MondayFromDraws(wanted, 10);
  }
}

=== FILE: booking.dfy ===
/**
  The booking map kept in the session: for each date text, the half hours
  still open that day. An entry is created from the generator the first
  time a date is looked at (helpers.py:94-98) and loses the booked half
  hours at fulfillment (helpers.py:188-197).
 */
module Booking {
  import opened Wrappers
  import opened Exceptions
  import opened Text
  import opened TimeGrid
  import opened Availability

  /** Date text to that day's open half hours; each is stored as its text `Format(t)`. */
  type Ledger = map<string, seq<Time>>

  /** The shape every entry has: bookable times in grid order, none twice. */
  predicate WellFormed(ledger: Ledger) {
    forall d :: d in ledger ==> StrictlyAscending(ledger[d]) && AllOnGrid(ledger[d])
  }

  /**
    The entry for `date`, and the ledger after the lookup: a stored entry is
    used as it is (even when empty); a missing one is generated and stored.
    Generation runs only for a missing date, so only then can it raise.
   */
  function GetOrCreate(ledger: Ledger, date: string, generated: Result<seq<Time>, Exception>)
    : (r: Result<(seq<Time>, Ledger), Exception>)
    ensures r.Failure? <==> date !in ledger && generated.Failure?
    ensures r.Failure? ==> r.error == generated.error
    ensures r.Success? ==>
              var (entry, after) := r.value;
              && date in after && after[date] == entry
              && after.Keys == ledger.Keys + {date}
              && (forall d :: d in ledger ==> after[d] == ledger[d])
              && (date !in ledger ==> entry == generated.value)
  {
    if date in ledger then Success((ledger[date], ledger))
    else
      var entry :- generated;
      Success((entry, ledger[date := entry]))
  }

  /** A second lookup of the same date finds the stored entry and changes nothing. */
  lemma GetOrCreateIdempotent(ledger: Ledger, date: string, generated: Result<seq<Time>, Exception>,
                              again: Result<seq<Time>, Exception>)
    requires GetOrCreate(ledger, date, generated).Success?
    ensures var (entry, after) := GetOrCreate(ledger, date, generated).value;
            GetOrCreate(after, date, again) == Success((entry, after))
  {
  }

  /** Looking up a date with a well-formed generated entry keeps the ledger well formed. */
  lemma GetOrCreateWellFormed(ledger: Ledger, date: string, generated: Result<seq<Time>, Exception>)
    requires WellFormed(ledger)
    requires generated.Success? ==> StrictlyAscending(generated.value) && AllOnGrid(generated.value)
    requires GetOrCreate(ledger, date, generated).Success?
    ensures WellFormed(GetOrCreate(ledger, date, generated).value.1)
  {
  }

  /** Position of the first entry whose text is `text`. */
  function FirstWithText(entry: seq<Time>, text: string): (r: Option<nat>)
    ensures r.None? <==> forall i :: 0 <= i < |entry| ==> Format(entry[i]) != text
    ensures r.Some? ==> r.value < |entry| && Format(entry[r.value]) == text
                        && forall j :: 0 <= j < r.value ==> Format(entry[j]) != text
  {
    if |entry| == 0 then None
    else if Format(entry[0]) == text then Some(0)
    else match FirstWithText(entry[1..], text)
      case None => None
      case Some(i) => Some(i + 1)
  }

  /** `list.remove(text)` on the stored texts: the first match goes, and no match raises. */
  function RemoveText(entry: seq<Time>, text: string): (r: Result<seq<Time>, Exception>)
    ensures r.Failure? <==> forall i :: 0 <= i < |entry| ==> Format(entry[i]) != text
    ensures r.Failure? ==> r.error == ValueError
    ensures r.Success? ==>
              exists i :: && 0 <= i < |entry| && Format(entry[i]) == text && r.value == entry[..i] + entry[i + 1..]
                          && forall j :: 0 <= j < i ==> Format(entry[j]) != text
  {
    match FirstWithText(entry, text)
    case None => Failure(ValueError)
    case Some(i) => Success(entry[..i] + entry[i + 1..])
  }

  /** Dropping position `i` of a sequence in grid order drops exactly that time and keeps the order. */
  lemma RemoveAt(s: seq<Time>, i: nat)
    requires StrictlyAscending(s) && AllOnGrid(s) && i < |s|
    ensures var rest := s[..i] + s[i + 1..];
            && StrictlyAscending(rest) && AllOnGrid(rest) && |rest| == |s| - 1
            && forall u :: u in rest <==> u in s && u != s[i]
  {
    RemoveAtOrdered(s, i);
    RemoveAtKeeps(s, i);
    RemoveAtDrops(s, i);
  }

  lemma RemoveAtOrdered(s: seq<Time>, i: nat)
    requires StrictlyAscending(s) && AllOnGrid(s) && i < |s|
    ensures StrictlyAscending(s[..i] + s[i + 1..]) && AllOnGrid(s[..i] + s[i + 1..])
  {
    var rest := s[..i] + s[i + 1..];
    RemoveAtIndex(s, i);
    forall a, b | 0 <= a < b < |rest|
      ensures Slot(rest[a]) < Slot(rest[b])
    {
      var a', b' := if a < i then a else a + 1, if b < i then b else b + 1;
      assert rest[a] == s[a'] && rest[b] == s[b'];
    }
  }

  lemma RemoveAtKeeps<T>(s: seq<T>, i: nat)
    requires i < |s|
    ensures forall u :: u in s && u != s[i] ==> u in s[..i] + s[i + 1..]
  {
    var rest := s[..i] + s[i + 1..];
    RemoveAtIndex(s, i);
    forall u | u in s && u != s[i]
      ensures u in rest
    {
      var k :| 0 <= k < |s| && s[k] == u;
      if k < i {
        assert rest[k] == u;
      } else {
        assert rest[k - 1] == u;
      }
    }
  }

  lemma RemoveAtDrops(s: seq<Time>, i: nat)
    requires StrictlyAscending(s) && i < |s|
    ensures forall u :: u in s[..i] + s[i + 1..] ==> u in s && u != s[i]
  {
    var rest := s[..i] + s[i + 1..];
    RemoveAtIndex(s, i);
    forall u | u in rest
      ensures u in s && u != s[i]
    {
      var k :| 0 <= k < |rest| && rest[k] == u;
      var m := if k < i then k else k + 1;
      assert s[m] == u && m != i;
      assert Slot(s[m]) != Slot(s[i]);
    }
  }

  /** Where each remaining element sat before position `i` was dropped. */
  lemma RemoveAtIndex<T>(s: seq<T>, i: nat)
    requires i < |s|
    ensures var rest := s[..i] + s[i + 1..];
            |rest| == |s| - 1 && forall k :: 0 <= k < |rest| ==> rest[k] == (if k < i then s[k] else s[k + 1])
  {
  }

  /** Removing from an entry in grid order leaves exactly the other times, still in order. */
  lemma RemoveTextContents(entry: seq<Time>, text: string)
    requires StrictlyAscending(entry) && AllOnGrid(entry)
    requires RemoveText(entry, text).Success?
    ensures var rest := RemoveText(entry, text).value;
            && StrictlyAscending(rest) && AllOnGrid(rest) && |rest| == |entry| - 1
            && forall u :: u in rest <==> u in entry && Format(u) != text
  {
    var i :| 0 <= i < |entry| && Format(entry[i]) == text
             && RemoveText(entry, text).value == entry[..i] + entry[i + 1..];
    RemoveAt(entry, i);
    forall u | u in entry
      ensures Format(u) != text <==> u != entry[i]
    {
      FormatInjective(u, entry[i]);
    }
  }

  /**
    The fulfillment's removals (helpers.py:189-194): the booked start goes,
    and when `second` holds so does the half hour after it, found through
    the text increment. An unset time, a time not in the entry and an
    increment that cannot parse all raise.
   */
  function Commit(entry: seq<Time>, time: Option<string>, second: bool): (r: Result<seq<Time>, Exception>)
    ensures time.None? ==> r == Failure(ValueError)
    ensures r.Failure? ==> r.error == ValueError
    ensures time.Some? && !second ==> r == RemoveText(entry, time.value)
    ensures r.Success? ==> time.Some? && exists i :: 0 <= i < |entry| && Format(entry[i]) == time.value
  {
    if time.None? then Failure(ValueError)
    else
      var rest :- RemoveText(entry, time.value);
      if second then
        var next :- IncrementText(time.value);
        RemoveText(rest, next)
      else Success(rest)
  }

  /**
    `rest` is `entry` without the time stored as `text`, and without that
    time's successor when `second` holds, in grid order.
   */
  ghost predicate Leaves(entry: seq<Time>, text: string, second: bool, rest: seq<Time>) {
    && StrictlyAscending(rest) && AllOnGrid(rest)
    && exists t :: t in entry && Format(t) == text && (second ==> Succ(t) in entry)
                   && forall u :: u in rest <==> u in entry && u != t && !(second && u == Succ(t))
  }

  /**
    After a commit on a well-formed entry, the booked time is gone, with
    its successor too when `second` holds, and every other time is still
    open: nothing can be booked twice, and nothing is lost.
   */
  lemma CommitFrees(entry: seq<Time>, time: Option<string>, second: bool)
    requires StrictlyAscending(entry) && AllOnGrid(entry)
    requires Commit(entry, time, second).Success?
    ensures Leaves(entry, time.value, second, Commit(entry, time, second).value)
  {
    var i :| 0 <= i < |entry| && Format(entry[i]) == time.value;
    var t := entry[i];
    if second {
      CommitBoth(entry, t);
    } else {
      CommitStart(entry, t);
    }
  }

  lemma CommitStart(entry: seq<Time>, t: Time)
    requires StrictlyAscending(entry) && AllOnGrid(entry) && t in entry
    ensures Commit(entry, Some(Format(t)), false).Success?
    ensures var rest := Commit(entry, Some(Format(t)), false).value;
            && StrictlyAscending(rest) && AllOnGrid(rest)
            && forall u :: u in rest <==> u in entry && u != t
  {
    var text := Format(t);
    FormatIn(t, entry);
    RemoveTextContents(entry, text);
    forall u | u in entry
      ensures Format(u) != text <==> u != t
    {
      FormatInjective(u, t);
    }
  }

  lemma CommitBoth(entry: seq<Time>, t: Time)
    requires StrictlyAscending(entry) && AllOnGrid(entry) && t in entry
    requires Commit(entry, Some(Format(t)), true).Success?
    ensures Succ(t) in entry
    ensures var rest := Commit(entry, Some(Format(t)), true).value;
            && StrictlyAscending(rest) && AllOnGrid(rest)
            && forall u :: u in rest <==> u in entry && u != t && u != Succ(t)
  {
    CommitStart(entry, t);
    var rest := Commit(entry, Some(Format(t)), false).value;
    IncrementFormat(t);
    var next := Format(Succ(t));
    CommitSecond(entry, Format(t), next);
    var j :| 0 <= j < |rest| && Format(rest[j]) == next;
    FormatInjective(rest[j], Succ(t));
    CommitStart(rest, Succ(t));
  }

  /**
    What a commit leaves admits no meeting that overlaps the booked start,
    nor its successor when that was booked too.
   */
  lemma LeavesNoOverlap(entry: seq<Time>, text: string, second: bool, rest: seq<Time>)
    requires Leaves(entry, text, second, rest)
    ensures exists t :: t in entry && Format(t) == text
                        && forall u, duration :: IsAvailable(u, duration, rest) == Success(true) ==>
                             t !in Span(u, duration / 30) && (second ==> Succ(t) !in Span(u, duration / 30))
  {
    var t :| t in entry && Format(t) == text && (second ==> Succ(t) in entry)
             && forall u :: u in rest <==> u in entry && u != t && !(second && u == Succ(t));
    assert t !in rest && (second ==> Succ(t) !in rest);
  }

  /** A removal succeeds once some position holds the text. */
  lemma RemoveFound(entry: seq<Time>, text: string, j: nat)
    requires j < |entry| && Format(entry[j]) == text
    ensures RemoveText(entry, text).Success?
  {
  }

  /** The second removal of a commit, once the first one and the increment have succeeded. */
  lemma CommitSecond(entry: seq<Time>, text: string, next: string)
    requires RemoveText(entry, text).Success? && IncrementText(text) == Success(next)
    ensures Commit(entry, Some(text), true) == RemoveText(RemoveText(entry, text).value, next)
  {
  }

  /** A commit of a stored time succeeds, also with its successor when that is stored too. */
  lemma CommitSucceeds(entry: seq<Time>, t: Time, second: bool)
    requires StrictlyAscending(entry) && AllOnGrid(entry) && t in entry
    requires second ==> Succ(t) in entry
    ensures Commit(entry, Some(Format(t)), second).Success?
  {
    CommitStart(entry, t);
    if second {
      var rest := RemoveText(entry, Format(t)).value;
      IncrementFormat(t);
      assert Succ(t) in rest;
      var j :| 0 <= j < |rest| && rest[j] == Succ(t);
      RemoveFound(rest, Format(Succ(t)), j);
      CommitSecond(entry, Format(t), Format(Succ(t)));
    }
  }

  /** What a commit leaves of an entry in grid order is still in grid order. */
  lemma CommitOrdered(entry: seq<Time>, time: Option<string>, second: bool)
    requires StrictlyAscending(entry) && AllOnGrid(entry)
    requires Commit(entry, time, second).Success?
    ensures StrictlyAscending(Commit(entry, time, second).value) && AllOnGrid(Commit(entry, time, second).value)
  {
    CommitFrees(entry, time, second);
  }

  /** Committing keeps the ledger well formed. */
  lemma CommitWellFormed(ledger: Ledger, date: string, time: Option<string>, second: bool)
    requires WellFormed(ledger) && date in ledger
    requires Commit(ledger[date], time, second).Success?
    ensures WellFormed(ledger[date := Commit(ledger[date], time, second).value])
  {
    var rest := Commit(ledger[date], time, second).value;
    CommitOrdered(ledger[date], time, second);
    var after := ledger[date := rest];
    forall d | d in after
      ensures StrictlyAscending(after[d]) && AllOnGrid(after[d])
    {
      if d != date {
        assert after[d] == ledger[d];
      }
    }
  }
}

=== FILE: calendar.dfy ===
/**
  What the date libraries report about a Date slot. Parsing, the comparison
  with today and the weekday lookup are outside the model; a turn receives
  their answers as a `DateInfo` per date text.
 */
module Calendar {

  /** `date.weekday()`: 0 is Monday, 6 is Sunday. */
  type Weekday = w: int | 0 <= w < 7

  const Monday: Weekday := 0
  const Wednesday: Weekday := 2
  const Friday: Weekday := 4
  const Saturday: Weekday := 5
  const Sunday: Weekday := 6

  datatype DateInfo =
    | Unparseable
      /** `matchesYmd`: the text also fits `%Y-%m-%d`; `afterToday`: the date is later than today. */
    | Parsed(matchesYmd: bool, afterToday: bool, weekday: Weekday)
}

=== FILE: dialog.dfy ===
/**
  The ScheduleMeeting intent (helpers.py:29-210) and the intent dispatch
  (helpers.py:216-228). A dialog turn validates the slots, asks for the
  first missing one, then looks up the day and either accepts the
  requested time, proposes the only start time or offers several; the
  fulfillment books the time in the ledger and closes the conversation.
 */
module Dialog {
  import opened Wrappers
  import opened Exceptions
  import opened Text
  import opened Intent
  import G = TimeGrid
  import A = Availability
  import C = Calendar
  import V = Validation
  import F = Formatting
  import B = Booking

  /**
    What the handler consults but this model does not contain: the
    duration of a meeting type (get_duration), what the date libraries say
    about a date text, and the random numbers of the Monday generator.
   */
  datatype Env = Env(durationOf: string -> int, dateOf: string -> C.DateInfo, draw: int -> A.HourDraw)

  /** The session attributes the handler reads and writes. */
  datatype Session = Session(ledger: B.Ledger, formattedTime: Option<string>)

  /** The dialog actions of the reply; a close is always `Fulfilled`. */
  datatype Directive =
    | ElicitSlot(slots: Slots, slotToElicit: SlotName, message: string)
    | ConfirmIntent(slots: Slots, message: string)
    | Delegate(slots: Slots)
    | Close(message: string)

  datatype Reply = Reply(session: Session, directive: Directive)

  datatype Request = Request(intentName: string, invocationSource: string, slots: Slots, session: Session)

  const AskPerson := "Who is gonna be that with?"
  const AskMeetingType := "What type of meeting would you like to schedule?"
  const NoAvailability := "There is not any availability on that date, is there another day which works for you?"
  const NotAvailable := "The time you requested is not available. "
  const OnlyAvailability := " is our only availability, does that work for you?"

  function AskDate(meetingType: string): string {
    "When would you like to schedule your " + meetingType + " ?"
  }

  function AskTime(date: string): string {
    "What time on " + date + " works for you? "
  }

  function Booked(spoken: string, date: string): string {
    "Okay, I have booked your meeting. See you at " + spoken + " on " + date
  }

  /**
    The reply to a day with start times (helpers.py:122-153): a single
    start is proposed for confirmation with the Time slot set to it,
    several are offered in a sentence naming the first of them.
   */
  function Offer(slots: Slots, session: Session, starts: seq<G.Time>, lead: string): (r: Result<Reply, Exception>)
    requires |starts| > 0 && A.AllOnGrid(starts)
    ensures r.Success? && r.value.session == session
    ensures |starts| == 1 ==>
              r.value.directive == ConfirmIntent(slots.(time := Some(G.Format(starts[0]))),
                                                 lead + F.Clock12(starts[0]) + OnlyAvailability)
    ensures |starts| > 1 ==>
              r.value.directive == ElicitSlot(slots, Time,
                                              lead + F.Lead(|starts|) + F.EnglishList(F.Clock12s(starts[..F.Named(|starts|)])))
  {
    if |starts| == 1 then
      var text := G.Format(starts[0]);
      F.TimeOutputOfFormat(starts[0]);
      var spoken := F.TimeOutput(text).value;
      Success(Reply(session, ConfirmIntent(slots.(time := Some(text)), lead + spoken + OnlyAvailability)))
    else
      F.AvailableTimesSpoken(starts);
      var sentence := F.AvailableTimeString(G.Formats(starts)).value;
      ConcatAssoc(lead, F.Lead(|starts|), F.EnglishList(F.Clock12s(starts[..F.Named(|starts|)])));
      Success(Reply(session, ElicitSlot(slots, Time, lead + sentence)))
  }

  /** A requested time is given and the meeting fits the day there (helpers.py:113-119). */
  predicate RequestFits(slots: Slots, duration: int, entry: seq<G.Time>) {
    Filled(slots.time) && A.IsAvailableText(slots.time.value, duration, G.Formats(entry)) == Success(true)
  }

  /** Why the start times are offered: the requested time did not fit, or none was given. */
  function OfferLead(slots: Slots, date: string): (r: string)
    ensures r == NotAvailable <==> Filled(slots.time)
    ensures !Filled(slots.time) ==> r == AskTime(date)
  {
    if Filled(slots.time) then NotAvailable
    else
      assert AskTime(date)[0] == 'W' && NotAvailable[0] == 'T';
      AskTime(date)
  }

  /**
    The requested time, when there is one (helpers.py:113-120): its spoken
    form is kept in the session; if the meeting fits the day the dialog is
    handed back to the platform, otherwise the start times are offered.
   */
  function Propose(slots: Slots, session: Session, entry: seq<G.Time>, duration: int, date: string)
    : (r: Result<Reply, Exception>)
    requires |A.Filter(duration, entry)| > 0
    ensures r.Failure? ==> r.error == ValueError || r.error == UnsupportedDuration(duration)
    ensures r.Success? ==> r.value.session.ledger == session.ledger && !r.value.directive.Close?
    ensures r.Success? && r.value.directive.Delegate? ==>
              Filled(slots.time) && A.IsAvailableText(slots.time.value, duration, G.Formats(entry)) == Success(true)
    ensures r.Success? && !r.value.directive.Delegate? ==>
              r.value.directive == Offer(slots, session, A.Filter(duration, entry), OfferLead(slots, date)).value.directive
  {
    var starts := A.Filter(duration, entry);
    if Filled(slots.time) then
      var text := slots.time.value;
      var formatted :- F.TimeOutput(text);
      var spokenSession := session.(formattedTime := Some(formatted));
      var fits :- A.IsAvailableText(text, duration, G.Formats(entry));
      if fits then Success(Reply(spokenSession, Delegate(slots)))
      else Offer(slots, spokenSession, starts, NotAvailable)
    else Offer(slots, session, starts, AskTime(date))
  }

  /**
    The day's part of the turn (helpers.py:92-153): the entry is looked up
    or generated, the start times for the meeting type's duration are
    computed, and a day without any sends the user back to the Date slot.
   */
  function Resolve(slots: Slots, session: Session, env: Env): (r: Result<Reply, Exception>)
    requires Filled(slots.meetingType) && Filled(slots.date)
    ensures r.Failure? ==> r.error == ValueError || r.error == UnsupportedDuration(env.durationOf(slots.meetingType.value))
    ensures r.Success? ==>
              var found := B.GetOrCreate(session.ledger, slots.date.value, A.GenerateFor(env.dateOf(slots.date.value), env.draw));
              found.Success? && r.value.session.ledger == found.value.1
    ensures r.Success? ==> !r.value.directive.Close?
  {
    var date := slots.date.value;
    var (entry, ledger) :- B.GetOrCreate(session.ledger, date, A.GenerateFor(env.dateOf(date), env.draw));
    var duration := env.durationOf(slots.meetingType.value);
    var stored := session.(ledger := ledger);
    if |A.Filter(duration, entry)| == 0 then
      Success(Reply(stored, ElicitSlot(slots.(date := None, time := None), Date, NoAvailability)))
    else Propose(slots, stored, entry, duration, date)
  }

  /**
    A dialog code hook turn (helpers.py:51-153): validation first, then the
    first of Person, MeetingType and Date that is missing, then the day.
   */
  function DialogTurn(slots: Slots, session: Session, env: Env): (r: Result<Reply, Exception>)
    ensures V.Validate(slots, env.dateOf).Failure? ==> r.Failure?
    ensures r.Failure? ==> r.error.ValueError? || r.error.UnsupportedDuration?
    ensures r.Success? ==> !r.value.directive.Close?
    ensures V.Validate(slots, env.dateOf).Success? && V.Validate(slots, env.dateOf).value.Violated? ==>
              var verdict := V.Validate(slots, env.dateOf).value;
              r == Success(Reply(session, ElicitSlot(Set(slots, verdict.slot, None), verdict.slot, verdict.message)))
    ensures V.Validate(slots, env.dateOf) == Success(V.Valid) && !Filled(slots.person) ==>
              r == Success(Reply(session, ElicitSlot(slots, Person, AskPerson)))
    ensures V.Validate(slots, env.dateOf) == Success(V.Valid) && Filled(slots.person) && !Filled(slots.meetingType) ==>
              r == Success(Reply(session, ElicitSlot(slots, MeetingType, AskMeetingType)))
    ensures V.Validate(slots, env.dateOf) == Success(V.Valid) && Filled(slots.person) && Filled(slots.meetingType)
            && !Filled(slots.date) ==>
              r == Success(Reply(session, ElicitSlot(slots, Date, AskDate(slots.meetingType.value))))
  {
    var verdict :- V.Validate(slots, env.dateOf);
    if verdict.Violated? then
      Success(Reply(session, ElicitSlot(Set(slots, verdict.slot, None), verdict.slot, verdict.message)))
    else if !Filled(slots.person) then Success(Reply(session, ElicitSlot(slots, Person, AskPerson)))
    else if !Filled(slots.meetingType) then Success(Reply(session, ElicitSlot(slots, MeetingType, AskMeetingType)))
    else if !Filled(slots.date) then
      Success(Reply(session, ElicitSlot(slots, Date, AskDate(slots.meetingType.value))))
    else Resolve(slots, session, env)
  }

  /** The Duration slot read as a number of minutes equal to 60. */
  function Sixty(duration: Option<string>): (r: bool)
    ensures r ==> duration.Some?
    ensures duration == Some("60") ==> r
  {
    ParseTwoDigits('6', '0');
    assert ['6', '0'] == "60";
    duration.Some? && ParseInt(duration.value) == Some(60)
  }

  /** A Duration slot holding the text of a number reads as sixty minutes exactly when the number is 60. */
  lemma SixtyReadsNumber(n: int)
    ensures Sixty(Some(IntString(n))) <==> n == 60
  {
    ParseIntString(n);
  }

  /**
    The fulfillment (helpers.py:187-210) with the decision whether the
    second half hour is booked too given as `second`. A date that has no
    entry raises; a non-empty entry loses the booked half hours; the
    closing message speaks the time, which raises when it is unset.
   */
  function FulfillWith(slots: Slots, session: Session, second: bool): (r: Result<Reply, Exception>)
    ensures (slots.date.None? || slots.date.value !in session.ledger) ==> r == Failure(KeyError)
    ensures r.Success? ==>
              && slots.date.Some? && slots.date.value in session.ledger && slots.time.Some?
              && r.value.session.formattedTime == session.formattedTime
              && r.value.session.ledger.Keys == session.ledger.Keys
              && (forall d :: d in session.ledger && d != slots.date.value ==>
                    r.value.session.ledger[d] == session.ledger[d])
              && r.value.directive.Close?
    ensures r.Success? && |session.ledger[slots.date.value]| > 0 ==>
              && B.Commit(session.ledger[slots.date.value], slots.time, second).Success?
              && r.value.session.ledger[slots.date.value] == B.Commit(session.ledger[slots.date.value], slots.time, second).value
    ensures r.Success? && |session.ledger[slots.date.value]| == 0 ==> r.value.session.ledger == session.ledger
    ensures slots.date.Some? && slots.date.value in session.ledger && |session.ledger[slots.date.value]| == 0
            ==> (r.Success? <==> Speak(slots.time).Success?)
    ensures r.Failure? ==> r.error in {KeyError, ValueError, AttributeError}
  {
    if slots.date.None? || slots.date.value !in session.ledger then Failure(KeyError)
    else
      var date := slots.date.value;
      var ledger :- Book(session.ledger, date, slots.time, second);
      var spoken :- Speak(slots.time);
      Success(Reply(session.(ledger := ledger), Close(Booked(spoken, date))))
  }

  /**
    The day written back after the removals: a day with no open half hour
    is left as it is, any other loses the committed times.
   */
  function Book(ledger: B.Ledger, date: string, time: Option<string>, second: bool): (r: Result<B.Ledger, Exception>)
    requires date in ledger
    ensures r.Failure? ==> r.error == ValueError
    ensures r.Success? ==> r.value.Keys == ledger.Keys && forall d :: d in ledger && d != date ==> r.value[d] == ledger[d]
    ensures |ledger[date]| == 0 ==> r == Success(ledger)
    ensures |ledger[date]| > 0 ==> (r.Success? <==> B.Commit(ledger[date], time, second).Success?)
    ensures |ledger[date]| > 0 && r.Success? ==> r.value[date] == B.Commit(ledger[date], time, second).value
  {
    if |ledger[date]| == 0 then Success(ledger)
    else
      var rest :- B.Commit(ledger[date], time, second);
      Success(ledger[date := rest])
  }

  /** The booked time spoken for the closing message; an unset time has no `split`. */
  function Speak(time: Option<string>): (r: Result<string, Exception>)
    ensures r.Failure? ==> r.error in {ValueError, AttributeError}
    ensures r.Failure? && r.error == AttributeError <==> time.None?
    ensures time.Some? ==> r == F.TimeOutput(time.value)
  {
    if time.None? then Failure(AttributeError) else F.TimeOutput(time.value)
  }

  /** A fulfillment that reaches the removals: the day has an entry, open half hours, and a time. */
  predicate Bookable(slots: Slots, session: Session) {
    && slots.date.Some? && slots.date.value in session.ledger && |session.ledger[slots.date.value]| > 0
    && slots.time.Some? && B.WellFormed(session.ledger)
  }

  /** What a fulfillment leaves of the day: the other times, minus the successor when `second` holds. */
  ghost predicate FreesOnly(slots: Slots, session: Session, after: Session, second: bool)
    requires Bookable(slots, session)
  {
    var date := slots.date.value;
    && date in after.ledger && B.WellFormed(after.ledger)
    && B.Leaves(session.ledger[date], slots.time.value, second, after.ledger[date])
  }

  lemma BookFrees(slots: Slots, session: Session, second: bool, after: Session)
    requires Bookable(slots, session)
    requires B.Commit(session.ledger[slots.date.value], slots.time, second).Success?
    requires after.ledger
          == session.ledger[slots.date.value := B.Commit(session.ledger[slots.date.value], slots.time, second).value]
    ensures FreesOnly(slots, session, after, second)
  {
    var date, entry := slots.date.value, session.ledger[slots.date.value];
    B.CommitFrees(entry, slots.time, second);
    B.CommitWellFormed(session.ledger, date, slots.time, second);
    assert after.ledger[date] == B.Commit(entry, slots.time, second).value;
  }

  /** A fulfillment that reaches the removals leaves what the commit leaves. */
  lemma FulfillWithFrees(slots: Slots, session: Session, second: bool)
    requires Bookable(slots, session) && FulfillWith(slots, session, second).Success?
    ensures FreesOnly(slots, session, FulfillWith(slots, session, second).value.session, second)
  {
    var after := FulfillWith(slots, session, second).value.session;
    var date := slots.date.value;
    var committed := B.Commit(session.ledger[date], slots.time, second).value;
    UpdatedAt(session.ledger, after.ledger, date, committed);
    BookFrees(slots, session, second, after);
  }

  /** A map that agrees with `m` except at `k`, where it holds `v`, is `m` updated at `k`. */
  lemma UpdatedAt<K, V>(m: map<K, V>, m': map<K, V>, k: K, v: V)
    requires k in m && m'.Keys == m.Keys && m'[k] == v
    requires forall j :: j in m && j != k ==> m'[j] == m[j]
    ensures m' == m[k := v]
  {
  }

  /**
    The fulfillment as written: `meeting_duration == 60` compares the slot,
    a string, with a number, so it never holds and only the start half hour
    of any meeting is taken off the day.
   */
  function FulfillAsWritten(slots: Slots, session: Session): (r: Result<Reply, Exception>)
    ensures r.Success? && Bookable(slots, session) ==> FreesOnly(slots, session, r.value.session, false)
  {
    var r := FulfillWith(slots, session, false);
    if r.Success? && Bookable(slots, session) then
      FulfillWithFrees(slots, session, false);
      r
    else r
  }

  /**
    The fulfillment as intended: a meeting whose Duration slot reads 60
    takes both of its half hours off the day, and nothing else.
   */
  function Fulfill(slots: Slots, session: Session): (r: Result<Reply, Exception>)
    ensures r.Success? && Bookable(slots, session) ==> FreesOnly(slots, session, r.value.session, Sixty(slots.duration))
  {
    var second := Sixty(slots.duration);
    var r := FulfillWith(slots, session, second);
    if r.Success? && Bookable(slots, session) then
      FulfillWithFrees(slots, session, second);
      r
    else r
  }

  /** schedule_meeting with the intended fulfillment: a dialog code hook turn never closes, a fulfillment always does. */
  function ScheduleMeeting(request: Request, env: Env): (r: Result<Reply, Exception>)
    ensures r.Success? ==> (r.value.directive.Close? <==> request.invocationSource != "DialogCodeHook")
    ensures r.Failure? ==> !r.error.UnsupportedIntent?
    ensures request.invocationSource != "DialogCodeHook" && r.Success? && Bookable(request.slots, request.session)
            ==> FreesOnly(request.slots, request.session, r.value.session, Sixty(request.slots.duration))
  {
    if request.invocationSource == "DialogCodeHook" then DialogTurn(request.slots, request.session, env)
    else Fulfill(request.slots, request.session)
  }

  /**
    schedule_meeting exactly as written: the fulfillment compares the
    Duration slot with a number and so only ever frees the start half hour.
   */
  function ScheduleMeetingAsWritten(request: Request, env: Env): (r: Result<Reply, Exception>)
    ensures r.Success? ==> (r.value.directive.Close? <==> request.invocationSource != "DialogCodeHook")
    ensures r.Failure? ==> !r.error.UnsupportedIntent?
    ensures request.invocationSource == "DialogCodeHook" ==> r == ScheduleMeeting(request, env)
    ensures request.invocationSource != "DialogCodeHook" && r.Success? && Bookable(request.slots, request.session)
            ==> FreesOnly(request.slots, request.session, r.value.session, false)
  {
    if request.invocationSource == "DialogCodeHook" then DialogTurn(request.slots, request.session, env)
    else FulfillAsWritten(request.slots, request.session)
  }

  /** dispatch: ScheduleMeeting is the only intent served; any other raises naming it. */
  function Dispatch(request: Request, env: Env): (r: Result<Reply, Exception>)
    ensures r.Failure? && r.error.UnsupportedIntent? <==> request.intentName != "ScheduleMeeting"
    ensures request.intentName != "ScheduleMeeting" ==> r.error.name == request.intentName
    ensures request.intentName == "ScheduleMeeting" ==> r == ScheduleMeeting(request, env)
  {
    if request.intentName == "ScheduleMeeting" then ScheduleMeeting(request, env)
    else Failure(UnsupportedIntent(request.intentName))
  }

  /** A turn only ever adds the day it looked up; stored days are kept as they are, and stay well formed. */
  lemma TurnKeepsLedger(slots: Slots, session: Session, env: Env)
    requires DialogTurn(slots, session, env).Success?
    ensures var after := DialogTurn(slots, session, env).value.session.ledger;
            && session.ledger.Keys <= after.Keys
            && after.Keys <= session.ledger.Keys + (if slots.date.Some? then {slots.date.value} else {})
            && (forall d :: d in session.ledger ==> after[d] == session.ledger[d])
            && (B.WellFormed(session.ledger) ==> B.WellFormed(after))
  {
    var verdict := V.Validate(slots, env.dateOf).value;
    if verdict.Valid? && Filled(slots.person) && Filled(slots.meetingType) && Filled(slots.date) {
      var date := slots.date.value;
      var generated := A.GenerateFor(env.dateOf(date), env.draw);
      if B.WellFormed(session.ledger) {
        B.GetOrCreateWellFormed(session.ledger, date, generated);
      }
    }
  }

  /** Handing the dialog back to the platform means the requested time fits the day. */
  lemma DelegatedTimeFits(slots: Slots, session: Session, env: Env)
    requires DialogTurn(slots, session, env).Success?
    requires DialogTurn(slots, session, env).value.directive.Delegate?
    ensures V.Validate(slots, env.dateOf) == Success(V.Valid)
    ensures Filled(slots.person) && Filled(slots.meetingType) && Filled(slots.date) && Filled(slots.time)
    ensures var after := DialogTurn(slots, session, env).value.session.ledger;
            && slots.date.value in after
            && var entry := after[slots.date.value];
               exists i :: 0 <= i < |entry| && G.Format(entry[i]) == slots.time.value
                           && A.IsAvailable(entry[i], env.durationOf(slots.meetingType.value), entry) == Success(true)
  {
    var date := slots.date.value;
    var (entry, ledger) := B.GetOrCreate(session.ledger, date, A.GenerateFor(env.dateOf(date), env.draw)).value;
    var duration := env.durationOf(slots.meetingType.value);
    A.IsAvailableTextFound(slots.time.value, duration, entry);
  }

  lemma ProposeRaisesOnly(slots: Slots, session: Session, entry: seq<G.Time>, duration: int, date: string)
    requires |A.Filter(duration, entry)| > 0
    requires Filled(slots.time) ==> V.ValidateTime(slots.time.value) == Success(V.Valid)
    requires Propose(slots, session, entry, duration, date).Failure?
    ensures Filled(slots.time) && duration != 30 && duration != 60
    ensures Propose(slots, session, entry, duration, date).error == UnsupportedDuration(duration)
  {
    var text := slots.time.value;
    V.PassingTextIsGridTime(text);
    assert F.TimeOutput(text).Success?;
    assert duration == 60 ==> G.IncrementText(text).Success?;
  }

  lemma ResolveRaisesOnly(slots: Slots, session: Session, env: Env)
    requires Filled(slots.meetingType) && Filled(slots.date)
    requires V.ValidateDate(env.dateOf(slots.date.value)) == Success(V.Valid)
    requires Filled(slots.time) ==> V.ValidateTime(slots.time.value) == Success(V.Valid)
    requires Resolve(slots, session, env).Failure?
    ensures var duration := env.durationOf(slots.meetingType.value);
            && Filled(slots.time) && duration != 30 && duration != 60
            && Resolve(slots, session, env).error == UnsupportedDuration(duration)
  {
    var date := slots.date.value;
    var found := B.GetOrCreate(session.ledger, date, A.GenerateFor(env.dateOf(date), env.draw));
    assert found.Success?;
    var (entry, ledger) := found.value;
    var duration := env.durationOf(slots.meetingType.value);
    ProposeRaisesOnly(slots, session.(ledger := ledger), entry, duration, date);
  }

  /**
    Once the slots pass validation, a turn can raise only for a meeting
    type whose duration is neither 30 nor 60 minutes, checked against a
    requested time.
   */
  lemma TurnRaisesOnly(slots: Slots, session: Session, env: Env)
    requires DialogTurn(slots, session, env).Failure?
    ensures V.Validate(slots, env.dateOf).Failure?
            || (&& Filled(slots.meetingType) && Filled(slots.time)
                && var duration := env.durationOf(slots.meetingType.value);
                   && duration != 30 && duration != 60
                   && DialogTurn(slots, session, env).error == UnsupportedDuration(duration))
  {
    if V.Validate(slots, env.dateOf).Success? {
      ResolveRaisesOnly(slots, session, env);
    }
  }

  lemma ProposeOutcome(slots: Slots, session: Session, entry: seq<G.Time>, duration: int, date: string)
    requires |A.Filter(duration, entry)| > 0
    requires Propose(slots, session, entry, duration, date).Success?
    ensures var directive := Propose(slots, session, entry, duration, date).value.directive;
            var starts := A.Filter(duration, entry);
            && (directive.ElicitSlot? ==>
                  && |starts| >= 2 && directive.slotToElicit == Time
                  && directive.message
                     == OfferLead(slots, date) + F.Lead(|starts|) + F.EnglishList(F.Clock12s(starts[..F.Named(|starts|)])))
            && (directive.ConfirmIntent? ==>
                  && |starts| == 1
                  && directive.slots == slots.(time := Some(G.Format(starts[0])))
                  && directive.message == OfferLead(slots, date) + F.Clock12(starts[0]) + OnlyAvailability)
            && (Filled(slots.time) && A.IsAvailableText(slots.time.value, duration, G.Formats(entry)) == Success(true)
                ==> directive == Delegate(slots))
            && (|starts| == 1 && !RequestFits(slots, duration, entry) ==> directive.ConfirmIntent?)
            && (|starts| >= 2 && !RequestFits(slots, duration, entry) ==>
                  directive.ElicitSlot? && directive.slotToElicit == Time && directive.slots == slots)
  {
  }

  lemma ResolveOutcome(slots: Slots, session: Session, env: Env)
    requires Filled(slots.meetingType) && Filled(slots.date)
    requires Resolve(slots, session, env).Success?
    ensures var reply := Resolve(slots, session, env).value;
            && slots.date.value in reply.session.ledger
            && var entry := reply.session.ledger[slots.date.value];
               var starts := A.Filter(env.durationOf(slots.meetingType.value), entry);
               && (reply.directive.ElicitSlot? && reply.directive.slotToElicit == Time ==>
                     && |starts| >= 2
                     && reply.directive.message
                        == OfferLead(slots, slots.date.value) + F.Lead(|starts|)
                           + F.EnglishList(F.Clock12s(starts[..F.Named(|starts|)])))
               && (reply.directive.ConfirmIntent? ==>
                     && |starts| == 1
                     && reply.directive.slots == slots.(time := Some(G.Format(starts[0])))
                     && reply.directive.message == OfferLead(slots, slots.date.value) + F.Clock12(starts[0]) + OnlyAvailability)
               && (|starts| == 0 <==> reply.directive == ElicitSlot(slots.(date := None, time := None), Date, NoAvailability))
               && (|starts| > 0 && Filled(slots.time)
                   && A.IsAvailableText(slots.time.value, env.durationOf(slots.meetingType.value), G.Formats(entry)) == Success(true)
                   ==> reply.directive == Delegate(slots))
               && (|starts| == 1 && !RequestFits(slots, env.durationOf(slots.meetingType.value), entry)
                   ==> reply.directive.ConfirmIntent?)
               && (|starts| >= 2 && !RequestFits(slots, env.durationOf(slots.meetingType.value), entry)
                   ==> reply.directive.ElicitSlot? && reply.directive.slotToElicit == Time && reply.directive.slots == slots)
  {
    var date := slots.date.value;
    var (entry, ledger) := B.GetOrCreate(session.ledger, date, A.GenerateFor(env.dateOf(date), env.draw)).value;
    var duration := env.durationOf(slots.meetingType.value);
    if |A.Filter(duration, entry)| > 0 {
      ProposeOutcome(slots, session.(ledger := ledger), entry, duration, date);
    }
  }

  /**
    When a turn asks for the time after validation passed, the sentence
    names the first of exactly those start times the day can host the
    meeting at, on the 12-hour clock, after saying why it asks.
   */
  lemma OffersAreTheFittingStarts(slots: Slots, session: Session, env: Env)
    requires DialogTurn(slots, session, env).Success? && V.Validate(slots, env.dateOf) == Success(V.Valid)
    requires DialogTurn(slots, session, env).value.directive.ElicitSlot?
    requires DialogTurn(slots, session, env).value.directive.slotToElicit == Time
    ensures Filled(slots.meetingType) && Filled(slots.date)
    ensures var reply := DialogTurn(slots, session, env).value;
            && slots.date.value in reply.session.ledger
            && var entry := reply.session.ledger[slots.date.value];
               var duration := env.durationOf(slots.meetingType.value);
               var starts := A.Filter(duration, entry);
               && |starts| >= 2
               && (forall u :: u in starts <==> G.OnGrid(u) && A.Keeps(u, duration, entry))
               && reply.directive.message
                  == OfferLead(slots, slots.date.value) + F.Lead(|starts|) + F.EnglishList(F.Clock12s(starts[..F.Named(|starts|)]))
  {
    ResolveOutcome(slots, session, env);
  }

  /**
    Once validation passed and Person, MeetingType and Date are set, the
    day decides: no start time sends the user back to the Date slot with
    Date and Time cleared, and a requested time that fits is handed back
    with the slots as they are.
   */
  lemma DayDecides(slots: Slots, session: Session, env: Env)
    requires DialogTurn(slots, session, env).Success? && V.Validate(slots, env.dateOf) == Success(V.Valid)
    requires Filled(slots.person) && Filled(slots.meetingType) && Filled(slots.date)
    ensures var reply := DialogTurn(slots, session, env).value;
            && slots.date.value in reply.session.ledger
            && var entry := reply.session.ledger[slots.date.value];
               var duration := env.durationOf(slots.meetingType.value);
               && (|A.Filter(duration, entry)| == 0
                   <==> reply.directive == ElicitSlot(slots.(date := None, time := None), Date, NoAvailability))
               && (|A.Filter(duration, entry)| > 0 && Filled(slots.time)
                   && A.IsAvailableText(slots.time.value, duration, G.Formats(entry)) == Success(true)
                   ==> reply.directive == Delegate(slots))
               && (|A.Filter(duration, entry)| == 1 && !RequestFits(slots, duration, entry)
                   ==> reply.directive.ConfirmIntent?)
               && (|A.Filter(duration, entry)| >= 2 && !RequestFits(slots, duration, entry)
                   ==> reply.directive.ElicitSlot? && reply.directive.slotToElicit == Time && reply.directive.slots == slots)
  {
    ResolveOutcome(slots, session, env);
  }

  /** When a turn asks to confirm, the day has exactly one start time and the Time slot is set to it. */
  lemma ConfirmsTheOnlyStart(slots: Slots, session: Session, env: Env)
    requires DialogTurn(slots, session, env).Success?
    requires DialogTurn(slots, session, env).value.directive.ConfirmIntent?
    ensures Filled(slots.meetingType) && Filled(slots.date)
    ensures var reply := DialogTurn(slots, session, env).value;
            && slots.date.value in reply.session.ledger
            && var entry := reply.session.ledger[slots.date.value];
               var duration := env.durationOf(slots.meetingType.value);
               var starts := A.Filter(duration, entry);
               && |starts| == 1 && G.OnGrid(starts[0]) && A.Keeps(starts[0], duration, entry)
               && reply.directive.slots == slots.(time := Some(G.Format(starts[0])))
               && reply.directive.message == OfferLead(slots, slots.date.value) + F.Clock12(starts[0]) + OnlyAvailability
  {
    ResolveOutcome(slots, session, env);
    var entry := DialogTurn(slots, session, env).value.session.ledger[slots.date.value];
    var starts := A.Filter(env.durationOf(slots.meetingType.value), entry);
    assert starts[0] in starts;
  }

  /**
    After the intended fulfillment, no 30- or 60-minute meeting the day
    still admits overlaps the booked start, nor its second half hour when
    the Duration slot reads 60: nothing is booked twice.
   */
  lemma NoDoubleBooking(slots: Slots, session: Session)
    requires Bookable(slots, session) && Fulfill(slots, session).Success?
    ensures var after := Fulfill(slots, session).value.session.ledger;
            && slots.date.value in after
            && exists t :: t in session.ledger[slots.date.value] && G.Format(t) == slots.time.value
                           && forall u, duration :: A.IsAvailable(u, duration, after[slots.date.value]) == Success(true) ==>
                                t !in A.Span(u, duration / 30)
                                && (Sixty(slots.duration) ==> G.Succ(t) !in A.Span(u, duration / 30))
  {
    var after := Fulfill(slots, session).value.session.ledger[slots.date.value];
    B.LeavesNoOverlap(session.ledger[slots.date.value], slots.time.value, Sixty(slots.duration), after);
  }

  /** A fulfillment of a stored time succeeds, also with its successor when that is stored too. */
  lemma FulfillSucceeds(slots: Slots, session: Session, second: bool, t: G.Time)
    requires Bookable(slots, session)
    requires t in session.ledger[slots.date.value] && slots.time == Some(G.Format(t))
    requires second ==> G.Succ(t) in session.ledger[slots.date.value]
    ensures FulfillWith(slots, session, second).Success?
  {
    B.CommitSucceeds(session.ledger[slots.date.value], t, second);
    F.TimeOutputOfFormat(t);
  }

  /** A Wednesday with 10:00, 16:00 and 16:30 open, booked for an hour at 16:00 (helpers.py:192). */
  const ExampleDate := "2026-10-14"
  const ExampleSession := Session(map[ExampleDate := A.MidweekTimes], None)
  const ExampleSlots := Slots(None, None, Some(ExampleDate), Some("16:00"), Some("60"), None, None, None)

  lemma ExampleReadings()
    ensures G.Format(G.Time(16, false)) == "16:00"
    ensures Sixty(ExampleSlots.duration)
    ensures Bookable(ExampleSlots, ExampleSession)
  {
    ExampleTime();
    ExampleDuration();
    ExampleDay();
  }

  lemma ExampleTime()
    ensures G.Format(G.Time(16, false)) == "16:00"
  {
    assert DecimalString(16) == DecimalString(1) + [DigitChar(6)];
  }

  lemma ExampleDuration()
    ensures Sixty(ExampleSlots.duration)
  {
    ParseTwoDigits('6', '0');
    assert "60" == ['6', '0'];
  }

  lemma ExampleDay()
    ensures Bookable(ExampleSlots, ExampleSession)
  {
    var entry := ExampleSession.ledger[ExampleDate];
    assert A.StrictlyAscending(entry);
  }

  /**
    Booking an hour from 16:00 as written leaves 16:30 open, so a second
    meeting can take the half hour the first one runs into; the intended
    fulfillment closes it.
   */
  lemma SecondHalfHourStaysOpen()
    ensures FulfillAsWritten(ExampleSlots, ExampleSession).Success?
    ensures A.IsAvailable(G.Time(16, true), 30, FulfillAsWritten(ExampleSlots, ExampleSession).value.session.ledger[ExampleDate])
            == Success(true)
    ensures Fulfill(ExampleSlots, ExampleSession).Success?
    ensures A.IsAvailable(G.Time(16, true), 30, Fulfill(ExampleSlots, ExampleSession).value.session.ledger[ExampleDate])
            == Success(false)
  {
    var start := G.Time(16, false);
    ExampleReadings();
    var entry := ExampleSession.ledger[ExampleDate];
    assert start in entry && G.Succ(start) in entry;
    FulfillSucceeds(ExampleSlots, ExampleSession, false, start);
    FulfillSucceeds(ExampleSlots, ExampleSession, true, start);
    forall t | G.Format(t) == "16:00"
      ensures t == start
    {
      G.FormatInjective(t, start);
    }
    var asWritten := FulfillAsWritten(ExampleSlots, ExampleSession).value.session.ledger[ExampleDate];
    var intended := Fulfill(ExampleSlots, ExampleSession).value.session.ledger[ExampleDate];
    assert B.Leaves(entry, "16:00", false, asWritten);
    assert B.Leaves(entry, "16:00", true, intended);
    assert G.Time(16, true) in asWritten;
    assert G.Time(16, true) !in intended;
  }
}

=== FILE: formatting.dfy ===
/**
  The spoken forms of times: build_time_output_string (12-hour clock with
  a.m. and p.m.) and build_available_time_string (the sentence offering
  start times).
 */
module Formatting {
  import opened Wrappers
  import opened Exceptions
  import opened Text
  import opened TimeGrid

  predicate EndsWith(s: string, suffix: string) {
    |suffix| <= |s| && s[|s| - |suffix|..] == suffix
  }

  lemma EndsWithConcat(front: string, back: string)
    ensures EndsWith(front + back, back)
  {
    assert (front + back)[|front|..] == back;
  }

  function Meridiem(hour: int): string {
    if hour >= 12 then " p.m." else " a.m."
  }

  /**
    build_time_output_string (validations.py:159-168): the minute text is
    kept as written, the hour is read with int() and told on a 12-hour
    clock; text that does not split into two parts, or whose hour is not a
    number, raises.
   */
  function TimeOutput(text: string): (r: Result<string, Exception>)
    ensures r.Failure? ==> r.error == ValueError
    ensures r.Success? <==> SplitTwo(text, ':').Some? && ParseInt(SplitTwo(text, ':').value.0).Some?
    ensures r.Success? ==>
              EndsWith(r.value, ":" + SplitTwo(text, ':').value.1 + Meridiem(ParseInt(SplitTwo(text, ':').value.0).value))
  {
    match SplitTwo(text, ':')
    case None => Failure(ValueError)
    case Some((h, m)) =>
      match ParseInt(h)
      case None => Failure(ValueError)
      case Some(hour) =>
        var tail := ":" + m + Meridiem(hour);
        var front := if hour > 12 then IntString(hour - 12) else if hour == 12 || hour == 0 then "12" else h;
        EndsWithConcat(front, tail);
        Success(front + tail)
  }

  /**
    The hour part of the spoken time: past noon it reads back as the hour
    less twelve, noon and midnight are told as 12, any other hour is kept
    as it was written.
   */
  lemma TimeOutputHour(text: string)
    requires TimeOutput(text).Success?
    ensures var (h, m) := SplitTwo(text, ':').value;
            var hour := ParseInt(h).value;
            var s := TimeOutput(text).value;
            var front := s[..|s| - |":" + m + Meridiem(hour)|];
            && (hour > 12 ==> ParseInt(front) == Some(hour - 12))
            && (hour == 12 || hour == 0 ==> front == "12")
            && (hour < 12 && hour != 0 ==> front == h)
  {
    var (h, m) := SplitTwo(text, ':').value;
    var hour := ParseInt(h).value;
    var tail := ":" + m + Meridiem(hour);
    var front := if hour > 12 then IntString(hour - 12) else if hour == 12 || hour == 0 then "12" else h;
    assert TimeOutput(text).value == front + tail;
    assert (front + tail)[..|front + tail| - |tail|] == front;
    if hour > 12 {
      ParseIntString(hour - 12);
    }
  }

  /** The conventional 12-hour hour: 0 and 12 are told as 12. */
  function Hour12(hour: nat): (h: nat)
    ensures 1 <= h <= 12
  {
    if hour % 12 == 0 then 12 else hour % 12
  }

  /** A time of day on the 12-hour clock, as an independent reference. */
  function Clock12(t: Time): string {
    DecimalString(Hour12(t.hour)) + ":" + MinuteText(t) + (if t.hour >= 12 then " p.m." else " a.m.")
  }

  /** For every time of day, the source's formatter speaks the stored text on the 12-hour clock. */
  lemma TimeOutputOfFormat(t: Time)
    requires t.hour < 24
    ensures TimeOutput(Format(t)) == Success(Clock12(t))
  {
    SplitFormat(t);
    ParseDecimal(t.hour);
    var tail := ":" + MinuteText(t) + Meridiem(t.hour);
    var front := if t.hour > 12 then IntString(t.hour - 12) else if t.hour == 12 || t.hour == 0 then "12" else DecimalString(t.hour);
    assert TimeOutput(Format(t)) == Success(front + tail);
    HourText12(t.hour);
    ConcatAssoc(DecimalString(Hour12(t.hour)), ":", MinuteText(t));
    ConcatAssoc(DecimalString(Hour12(t.hour)), ":" + MinuteText(t), Meridiem(t.hour));
  }

  lemma HourText12(hour: nat)
    requires hour < 24
    ensures (if hour > 12 then IntString(hour - 12) else if hour == 12 || hour == 0 then "12" else DecimalString(hour))
         == DecimalString(Hour12(hour))
  {
    if hour > 12 {
      assert Hour12(hour) == hour - 12;
    } else if hour == 12 || hour == 0 {
      assert Hour12(hour) == 12;
      assert DecimalString(12) == "12";
    } else {
      assert Hour12(hour) == hour;
    }
  }

  lemma Clock12Split(t: Time)
    ensures var s := Clock12(t);
            |s| >= 5 && s[..|s| - 5] == DecimalString(Hour12(t.hour)) + ":" + MinuteText(t)
            && s[|s| - 5..] == (if t.hour >= 12 then " p.m." else " a.m.")
  {
  }

  /** No two bookable times are spoken alike. */
  lemma Clock12Injective(t: Time, u: Time)
    requires OnGrid(t) && OnGrid(u)
    ensures Clock12(t) == Clock12(u) <==> t == u
  {
    if Clock12(t) == Clock12(u) {
      Clock12Split(t);
      Clock12Split(u);
      var a := Time(Hour12(t.hour), t.half);
      var b := Time(Hour12(u.hour), u.half);
      assert Format(a) == Format(b);
      FormatInjective(a, b);
      assert (t.hour >= 12) == (u.hour >= 12) by {
        assert " p.m."[1] != " a.m."[1];
      }
    }
  }

  /** build_time_output_string on each text, raising at the first that raises. */
  function Render(texts: seq<string>): (r: Result<seq<string>, Exception>)
    ensures r.Failure? ==> r.error == ValueError
    ensures r.Success? <==> forall i :: 0 <= i < |texts| ==> TimeOutput(texts[i]).Success?
    ensures r.Success? ==> |r.value| == |texts| && forall i :: 0 <= i < |texts| ==> TimeOutput(texts[i]) == Success(r.value[i])
  {
    MapAll(TimeOutput, texts)
  }

  /** The spoken forms of times of day, on the 12-hour clock. */
  function Clock12s(ts: seq<Time>): (r: seq<string>)
    ensures |r| == |ts| && forall i :: 0 <= i < |ts| ==> r[i] == Clock12(ts[i])
  {
    seq(|ts|, i requires 0 <= i < |ts| => Clock12(ts[i]))
  }

  /** Stored times always render, each as its 12-hour form. */
  lemma RenderFormats(ts: seq<Time>)
    requires forall i :: 0 <= i < |ts| ==> ts[i].hour < 24
    ensures Render(Formats(ts)) == Success(Clock12s(ts))
  {
    var texts := Formats(ts);
    forall i | 0 <= i < |texts|
      ensures TimeOutput(texts[i]) == Success(Clock12(ts[i]))
    {
      TimeOutputOfFormat(ts[i]);
    }
    assert Render(texts).value == Clock12s(ts);
  }

  /** Names joined as English lists them: `a`, `a and b`, `a, b and c`. */
  function EnglishList(names: seq<string>): string
    requires |names| >= 1
    decreases |names|
  {
    if |names| == 1 then names[0]
    else if |names| == 2 then names[0] + " and " + names[1]
    else names[0] + ", " + EnglishList(names[1..])
  }

  const PlainLead := "We have availabilities at "
  const PlentyLead := "We have plenty of availability, including "

  /** The opening words: the "plenty" form for more than three options. */
  function Lead(count: nat): string {
    if count > 3 then PlentyLead else PlainLead
  }

  lemma LeadIsPlenty(count: nat, rest: string)
    ensures PlentyLead <= Lead(count) + rest <==> count > 3
  {
    if count <= 3 {
      assert (PlainLead + rest)[8] == 'a';
      assert PlentyLead[8] == 'p';
    }
  }

  /** How many options the sentence names: both of two, otherwise the first three. */
  function Named(count: nat): nat {
    if count == 2 then 2 else 3
  }

  lemma JoinTwo(lead: string, a: string, b: string)
    ensures lead + a + " and " + b == lead + EnglishList([a, b])
  {
    assert [a, b][0] == a && [a, b][1] == b;
  }

  lemma JoinThree(lead: string, a: string, b: string, c: string)
    ensures lead + a + ", " + b + " and " + c == lead + EnglishList([a, b, c])
  {
    assert [a, b, c][1..] == [b, c];
    JoinTwo(a + ", ", b, c);
  }

  /**
    build_available_time_string (validations.py:171-183): the lead, then
    the first options named, spoken on the 12-hour clock and joined as an
    English list; the first option that does not render raises, and fewer
    than two options run past the end of the list.
   */
  function AvailableTimeString(options: seq<string>): (r: Result<string, Exception>)
    ensures |options| < 2 ==> r.Failure?
    ensures |options| < 2 ==> (r.error == ValueError <==> |options| == 1 && TimeOutput(options[0]).Failure?)
    ensures |options| < 2 && r.error != ValueError ==> r.error == IndexError
    ensures |options| >= 2 ==> (r.Success? <==> Render(options[..Named(|options|)]).Success?)
    ensures |options| >= 2 && r.Failure? ==> r.error == ValueError
    ensures r.Success? ==> |options| >= 2 && r.value == Lead(|options|) + EnglishList(Render(options[..Named(|options|)]).value)
    ensures r.Success? ==> (PlentyLead <= r.value <==> |options| > 3)
  {
    if |options| == 0 then Failure(IndexError)
    else if |options| == 1 then
      if TimeOutput(options[0]).Failure? then Failure(ValueError) else Failure(IndexError)
    else
      var spoken :- Render(options[..Named(|options|)]);
      Success(Sentence(|options|, spoken))
  }

  /** The sentence itself, joined the way the source joins its two or three parts. */
  function Sentence(count: nat, spoken: seq<string>): (r: string)
    requires count >= 2 && |spoken| == Named(count)
    ensures r == Lead(count) + EnglishList(spoken)
    ensures PlentyLead <= r <==> count > 3
  {
    var prefix := Lead(count);
    if count == 2 then
      assert spoken == [spoken[0], spoken[1]];
      JoinTwo(prefix, spoken[0], spoken[1]);
      LeadIsPlenty(count, EnglishList(spoken));
      prefix + spoken[0] + " and " + spoken[1]
    else
      assert spoken == [spoken[0], spoken[1], spoken[2]];
      JoinThree(prefix, spoken[0], spoken[1], spoken[2]);
      LeadIsPlenty(count, EnglishList(spoken));
      prefix + spoken[0] + ", " + spoken[1] + " and " + spoken[2]
  }

  /** Offering stored times speaks the first of them on the 12-hour clock. */
  lemma AvailableTimesSpoken(ts: seq<Time>)
    requires |ts| >= 2 && forall i :: 0 <= i < |ts| ==> ts[i].hour < 24
    ensures AvailableTimeString(Formats(ts)) == Success(Lead(|ts|) + EnglishList(Clock12s(ts[..Named(|ts|)])))
  {
    var k := Named(|ts|);
    assert Formats(ts)[..k] == Formats(ts[..k]);
    RenderFormats(ts[..k]);
  }
}

=== FILE: intent.dfy ===
/** The ScheduleMeeting intent's slots, as the platform sends them: each a string or unset. */
module Intent {
  import opened Wrappers

  datatype SlotName = Person | MeetingType | Date | Time | Duration | Address | InvitationLink | Phone

  datatype Slots = Slots(
    person: Option<string>,
    meetingType: Option<string>,
    date: Option<string>,
    time: Option<string>,
    duration: Option<string>,
    address: Option<string>,
    invitationLink: Option<string>,
    phone: Option<string>)

  function Get(slots: Slots, name: SlotName): Option<string> {
    match name
    case Person => slots.person
    case MeetingType => slots.meetingType
    case Date => slots.date
    case Time => slots.time
    case Duration => slots.duration
    case Address => slots.address
    case InvitationLink => slots.invitationLink
    case Phone => slots.phone
  }

  /** `slots[name] = value`: that slot changes, no other does. */
  function Set(slots: Slots, name: SlotName, value: Option<string>): (r: Slots)
    ensures Get(r, name) == value
    ensures forall other :: other != name ==> Get(r, other) == Get(slots, other)
  {
    match name
    case Person => slots.(person := value)
    case MeetingType => slots.(meetingType := value)
    case Date => slots.(date := value)
    case Time => slots.(time := value)
    case Duration => slots.(duration := value)
    case Address => slots.(address := value)
    case InvitationLink => slots.(invitationLink := value)
    case Phone => slots.(phone := value)
  }

  /** Python truthiness of a slot value: set and not empty. */
  predicate Filled(value: Option<string>) {
    value.Some? && value.value != ""
  }
}

=== FILE: text.dfy ===
/**
  The Python string and integer builtins the handler leans on, on ASCII text:
  `str.strip()`, `int(text)`, `'{}'.format(n)` and `a, b = text.split(sep)`.
 */
module Text {
  import opened Wrappers

  lemma ConcatAssoc<T>(a: seq<T>, b: seq<T>, c: seq<T>)
    ensures (a + b) + c == a + (b + c)
  {
  }

  /** ASCII characters that `str.isspace()` accepts. */
  predicate IsSpace(c: char) {
    c == ' ' || ('\t' <= c <= '\r') || ('\U{1C}' <= c <= '\U{1F}')
  }

  predicate IsDigit(c: char) {
    '0' <= c <= '9'
  }

  predicate AllDigits(s: string) {
    forall i :: 0 <= i < |s| ==> IsDigit(s[i])
  }

  /** Drops leading white space. */
  function TrimStart(s: string): (r: string)
    ensures |r| <= |s| && r == s[|s| - |r|..]
    ensures |r| > 0 ==> !IsSpace(r[0])
    ensures forall i :: 0 <= i < |s| - |r| ==> IsSpace(s[i])
  {
    if |s| > 0 && IsSpace(s[0]) then TrimStart(s[1..]) else s
  }

  /** Drops trailing white space. */
  function TrimEnd(s: string): (r: string)
    ensures |r| <= |s| && r == s[..|r|]
    ensures |r| > 0 ==> !IsSpace(r[|r| - 1])
    ensures forall i :: |r| <= i < |s| ==> IsSpace(s[i])
  {
    if |s| > 0 && IsSpace(s[|s| - 1]) then TrimEnd(s[..|s| - 1]) else s
  }

  /** `str.strip()` with no argument. */
  function Strip(s: string): string {
    TrimEnd(TrimStart(s))
  }

  /** Text `int()` reads as digits: decimal digits, a single underscore allowed between two of them. */
  predicate IsDigitRun(s: string) {
    && |s| > 0 && IsDigit(s[0]) && IsDigit(s[|s| - 1])
    && (forall i :: 0 <= i < |s| ==> IsDigit(s[i]) || s[i] == '_')
    && (forall i :: 0 <= i < |s| - 1 && s[i] == '_' ==> IsDigit(s[i + 1]))
  }

  function WithoutUnderscores(s: string): (r: string)
    ensures (forall i :: 0 <= i < |s| ==> IsDigit(s[i]) || s[i] == '_') ==> AllDigits(r)
    ensures (forall i :: 0 <= i < |s| ==> s[i] != '_') ==> r == s
  {
    if |s| == 0 then ""
    else if s[0] == '_' then WithoutUnderscores(s[1..])
    else [s[0]] + WithoutUnderscores(s[1..])
  }

  /** The number a string of decimal digits denotes, most significant digit first. */
  function DecimalValue(ds: string): nat
    requires AllDigits(ds)
  {
    if |ds| == 0 then 0
    else 10 * DecimalValue(ds[..|ds| - 1]) + (ds[|ds| - 1] as int - '0' as int)
  }

  /** `int(text)` on a string; `None` where Python raises `ValueError`. */
  function ParseInt(text: string): (r: Option<int>)
  {
    var t := Strip(text);
    if |t| > 0 && (t[0] == '+' || t[0] == '-') then
      if IsDigitRun(t[1..]) then
        var n: int := DecimalValue(WithoutUnderscores(t[1..]));
        Some(if t[0] == '-' then -n else n)
      else None
    else if IsDigitRun(t) then Some(DecimalValue(WithoutUnderscores(t)))
    else None
  }

  /**
    What `int()` accepts and what it returns: an accepted text, stripped,
    ends in a digit, a negative result was written with a minus sign, and
    plain digits read as their decimal value.
   */
  lemma ParseIntReads(text: string)
    ensures ParseInt(text).Some? ==> |Strip(text)| > 0 && IsDigit(Strip(text)[|Strip(text)| - 1])
    ensures ParseInt(text).Some? && ParseInt(text).value < 0 ==> Strip(text)[0] == '-'
    ensures |Strip(text)| > 0 && AllDigits(Strip(text)) ==> ParseInt(text) == Some(DecimalValue(Strip(text)))
  {
    var t := Strip(text);
    if |t| > 0 && AllDigits(t) {
      DigitsAreARun(t);
      assert IsDigit(t[0]);
    } else if |t| > 0 && (t[0] == '+' || t[0] == '-') && IsDigitRun(t[1..]) {
      assert t[|t| - 1] == t[1..][|t[1..]| - 1];
    }
  }

  lemma DigitsAreARun(s: string)
    requires |s| > 0 && AllDigits(s)
    ensures IsDigitRun(s) && WithoutUnderscores(s) == s
  {
  }

  function DigitChar(d: nat): (c: char)
    requires d < 10
    ensures IsDigit(c) && c as int - '0' as int == d
  {
    ('0' as int + d) as char
  }

  /** `'{}'.format(n)` for a natural number: no sign, no padding. */
  function DecimalString(n: nat): (r: string)
    ensures AllDigits(r)
    ensures |r| == 1 <==> n < 10
    ensures 10 <= n < 100 ==> |r| == 2
  {
    if n < 10 then [DigitChar(n)] else DecimalString(n / 10) + [DigitChar(n % 10)]
  }

  /** `'{}'.format(i)` for any integer. */
  function IntString(i: int): string {
    if i < 0 then "-" + DecimalString(-i) else DecimalString(i)
  }

  lemma {:induction false} DecimalValueOfString(n: nat)
    ensures DecimalValue(DecimalString(n)) == n
    decreases n
  {
    if n >= 10 {
      var s := DecimalString(n);
      assert s[..|s| - 1] == DecimalString(n / 10);
      DecimalValueOfString(n / 10);
    }
  }

  lemma StripNoSpaceEnds(s: string)
    requires |s| > 0 && !IsSpace(s[0]) && !IsSpace(s[|s| - 1])
    ensures Strip(s) == s
  {
  }

  lemma DigitsAreDigitRun(d: string)
    requires |d| > 0 && AllDigits(d)
    ensures IsDigitRun(d) && WithoutUnderscores(d) == d
  {
  }

  /** `int()` of text with no surrounding space and no sign is the value of its digits. */
  lemma ParseUnsigned(t: string)
    requires Strip(t) == t && IsDigitRun(t)
    ensures ParseInt(t) == Some(DecimalValue(WithoutUnderscores(t)) as int)
  {
    assert t[0] != '+' && t[0] != '-';
  }

  /** `int()` of a run of plain digits is their value. */
  lemma ParseDigits(d: string)
    requires |d| > 0 && AllDigits(d)
    ensures ParseInt(d) == Some(DecimalValue(d) as int)
  {
    StripNoSpaceEnds(d);
    DigitsAreDigitRun(d);
    ParseUnsigned(d);
  }

  lemma ParseDecimal(n: nat)
    ensures ParseInt(DecimalString(n)) == Some(n)
  {
    DecimalValueOfString(n);
    ParseDigits(DecimalString(n));
  }

  /** `int()` of a two-digit text. */
  lemma ParseTwoDigits(a: char, b: char)
    requires IsDigit(a) && IsDigit(b)
    ensures ParseInt([a, b]) == Some(10 * (a as int - '0' as int) + (b as int - '0' as int))
  {
    var d := [a, b];
    StripNoSpaceEnds(d);
    DigitsAreDigitRun(d);
    assert d[..1] == [a];
    assert [a][..0] == [];
    assert DecimalValue([a]) == a as int - '0' as int;
    assert DecimalValue(d) == 10 * DecimalValue([a]) + (b as int - '0' as int);
    ParseUnsigned(d);
  }

  /** Reading back what `'{}'.format(i)` wrote gives `i` again. */
  lemma ParseIntString(i: int)
    ensures ParseInt(IntString(i)) == Some(i)
  {
    if i < 0 {
      var d := DecimalString(-i);
      var s := "-" + d;
      DecimalValueOfString(-i);
      StripNoSpaceEnds(s);
      assert s[1..] == d;
      assert IsDigitRun(d);
    } else {
      ParseDecimal(i);
    }
  }

  /** Position of the first `c` in `s`. */
  function IndexOf(s: string, c: char): (r: Option<nat>)
    ensures r.Some? ==> r.value < |s| && s[r.value] == c && c !in s[..r.value]
    ensures r.None? ==> c !in s
  {
    if |s| == 0 then None
    else if s[0] == c then Some(0)
    else
      match IndexOf(s[1..], c)
      case None => None
      case Some(i) =>
        assert s[..i + 1] == [s[0]] + s[1..][..i];
        Some(i + 1)
  }

  /** How many times `c` occurs in `s`. */
  function Occurrences(s: string, c: char): nat {
    if |s| == 0 then 0 else (if s[0] == c then 1 else 0) + Occurrences(s[1..], c)
  }

  /** `a, b = s.split(sep)`: the two parts, or `None` where the unpacking raises. */
  function SplitTwo(s: string, sep: char): (r: Option<(string, string)>)
    ensures r.Some? ==> s == r.value.0 + [sep] + r.value.1 && sep !in r.value.0 && sep !in r.value.1
  {
    match IndexOf(s, sep)
    case None => None
    case Some(i) =>
      assert s == s[..i] + [sep] + s[i + 1..];
      if sep in s[i + 1..] then None else Some((s[..i], s[i + 1..]))
  }

  lemma {:induction false} OccurrencesAppend(a: string, b: string, c: char)
    ensures Occurrences(a + b, c) == Occurrences(a, c) + Occurrences(b, c)
    decreases |a|
  {
    if |a| > 0 {
      assert (a + b)[1..] == a[1..] + b;
      OccurrencesAppend(a[1..], b, c);
    } else {
      assert a + b == b;
    }
  }

  lemma {:induction false} OccurrencesZero(s: string, c: char)
    ensures Occurrences(s, c) == 0 <==> c !in s
    decreases |s|
  {
    if |s| > 0 {
      OccurrencesZero(s[1..], c);
      assert s == [s[0]] + s[1..];
    }
  }

  lemma {:induction false} IndexOfIs(s: string, c: char, m: nat)
    requires m < |s| && s[m] == c && c !in s[..m]
    ensures IndexOf(s, c) == Some(m)
    decreases m
  {
    if m > 0 {
      assert s[0] == s[..m][0];
      assert s[1..][..m - 1] == s[..m][1..];
      IndexOfIs(s[1..], c, m - 1);
    }
  }

  /** The unpacking succeeds exactly when the text is `a + sep + b` with no other separator. */
  lemma SplitTwoSpec(s: string, sep: char, a: string, b: string)
    ensures SplitTwo(s, sep) == Some((a, b)) <==> s == a + [sep] + b && sep !in a && sep !in b
  {
    if s == a + [sep] + b && sep !in a && sep !in b {
      assert s[..|a|] == a;
      assert s[|a| + 1..] == b;
      IndexOfIs(s, sep, |a|);
    }
    if SplitTwo(s, sep) == Some((a, b)) {
      var i := IndexOf(s, sep).value;
      assert s == s[..i] + [sep] + s[i + 1..];
    }
  }

  /** The unpacking succeeds exactly when the separator occurs once. */
  lemma SplitTwoOccurrences(s: string, sep: char)
    ensures SplitTwo(s, sep).Some? <==> Occurrences(s, sep) == 1
  {
    var i := IndexOf(s, sep);
    if i.Some? {
      var k := i.value;
      assert s == s[..k] + [sep] + s[k + 1..];
      OccurrencesAppend(s[..k] + [sep], s[k + 1..], sep);
      OccurrencesAppend(s[..k], [sep], sep);
      OccurrencesZero(s[..k], sep);
      OccurrencesZero(s[k + 1..], sep);
    } else {
      OccurrencesZero(s, sep);
    }
  }
}

=== FILE: timegrid.dfy ===
/**
  The half-hour time grid. A time is an hour and whether it is on the half
  hour; its stored text is the hour without padding, a colon, then `00` or
  `30` (validations.py:27, :61-72). Bookable start times run from 10:00 to
  16:30; 17:00 is where the grid walk stops.
 */
module TimeGrid {
  import opened Wrappers
  import opened Exceptions
  import opened Text

  datatype Time = Time(hour: nat, half: bool)

  function Minute(t: Time): nat {
    if t.half then 30 else 0
  }

  function MinuteOfDay(t: Time): nat {
    60 * t.hour + Minute(t)
  }

  /** Position of a time among all half hours of the day, counted from midnight. */
  function Slot(t: Time): nat {
    2 * t.hour + (if t.half then 1 else 0)
  }

  function TimeAt(k: nat): (t: Time)
    ensures Slot(t) == k
  {
    Time(k / 2, k % 2 == 1)
  }

  lemma SlotInjective(t: Time, u: Time)
    ensures Slot(t) == Slot(u) <==> t == u
  {
  }

  const Opening := Time(10, false)
  const Closing := Time(17, false)

  /** A start time the business hours admit: 10:00 up to 16:30. */
  predicate OnGrid(t: Time) {
    10 <= t.hour <= 16
  }

  /** increment_time_by_thirty_mins on times: H:30 becomes (H+1):00, H:00 becomes H:30. */
  function Succ(t: Time): (r: Time)
    ensures MinuteOfDay(r) == MinuteOfDay(t) + 30
    ensures Slot(r) == Slot(t) + 1
  {
    if t.half then Time(t.hour + 1, false) else Time(t.hour, true)
  }

  /** The fourteen bookable start times, each the successor of the one before. */
  function Grid(): (g: seq<Time>)
    ensures |g| == 14 && g[0] == Opening && Succ(g[13]) == Closing
    ensures forall i :: 0 <= i < 13 ==> g[i + 1] == Succ(g[i])
    ensures forall i :: 0 <= i < 14 ==> Slot(g[i]) == Slot(Opening) + i
    ensures forall t :: t in g <==> OnGrid(t)
  {
    var g := seq(14, i requires 0 <= i < 14 => TimeAt(20 + i));
    assert forall t :: OnGrid(t) ==> g[Slot(t) - 20] == t;
    g
  }

  function MinuteText(t: Time): string {
    if t.half then "30" else "00"
  }

  /** The text the source stores for a time. */
  function Format(t: Time): string {
    DecimalString(t.hour) + ":" + MinuteText(t)
  }

  /** Every stored time text, in order. */
  function Formats(ts: seq<Time>): (r: seq<string>)
    ensures |r| == |ts| && forall i :: 0 <= i < |ts| ==> r[i] == Format(ts[i])
  {
    seq(|ts|, i requires 0 <= i < |ts| => Format(ts[i]))
  }

  /** increment_time_by_thirty_mins on text: both parts go through int(), so it raises on anything else. */
  function IncrementText(s: string): (r: Result<string, Exception>)
    ensures r.Failure? ==> r.error == ValueError
    ensures r.Success? <==> SplitTwo(s, ':').Some? && ParseInt(SplitTwo(s, ':').value.0).Some?
                            && ParseInt(SplitTwo(s, ':').value.1).Some?
  {
    match SplitTwo(s, ':')
    case None => Failure(ValueError)
    case Some((h, m)) =>
      match (ParseInt(h), ParseInt(m))
      case (Some(hour), Some(minute)) =>
        Success(if minute == 30 then IntString(hour + 1) + ":00" else IntString(hour) + ":30")
      case _ => Failure(ValueError)
  }

  lemma SplitFormat(t: Time)
    ensures SplitTwo(Format(t), ':') == Some((DecimalString(t.hour), MinuteText(t)))
  {
    SplitTwoSpec(Format(t), ':', DecimalString(t.hour), MinuteText(t));
  }

  /** Distinct times are stored as distinct texts, so text membership is time membership. */
  lemma FormatInjective(t: Time, u: Time)
    ensures Format(t) == Format(u) <==> t == u
  {
    if Format(t) == Format(u) {
      SplitFormat(t);
      SplitFormat(u);
      ParseDecimal(t.hour);
      ParseDecimal(u.hour);
    }
  }

  lemma FormatIn(t: Time, ts: seq<Time>)
    ensures Format(t) in Formats(ts) <==> t in ts
  {
    if Format(t) in Formats(ts) {
      var i :| 0 <= i < |ts| && Formats(ts)[i] == Format(t);
      FormatInjective(t, ts[i]);
    }
  }

  /** A grid text is five characters long. */
  lemma FormatLength(t: Time)
    requires 10 <= t.hour < 100
    ensures |Format(t)| == 5
  {
  }

  lemma ParseMinuteText(t: Time)
    ensures ParseInt(MinuteText(t)) == Some(Minute(t))
  {
    if t.half {
      ParseTwoDigits('3', '0');
    } else {
      ParseTwoDigits('0', '0');
    }
  }

  lemma SuccText(t: Time)
    ensures (if Minute(t) == 30 then IntString(t.hour + 1) + ":00" else IntString(t.hour) + ":30") == Format(Succ(t))
  {
  }

  lemma IncrementParts(t: Time)
    ensures IncrementText(Format(t))
         == Success(if Minute(t) == 30 then IntString(t.hour + 1) + ":00" else IntString(t.hour) + ":30")
  {
    SplitFormat(t);
    ParseDecimal(t.hour);
    ParseMinuteText(t);
  }

  /** On stored texts, the text increment is the successor (validations.py:25-27). */
  lemma IncrementFormat(t: Time)
    ensures IncrementText(Format(t)) == Success(Format(Succ(t)))
  {
    IncrementParts(t);
    SuccText(t);
  }
}

=== FILE: validation.dfy ===
/**
  validate_schedule_meeting: the format checks run on the slots at the start
  of every dialog turn. A failed check names the slot to clear and ask for
  again (validations.py:126-156).
 */
module Validation {
  import opened Wrappers
  import opened Exceptions
  import opened Text
  import opened Intent
  import opened Calendar
  import G = TimeGrid

  /** A passed check, or the slot to ask for again with the prompt to ask it with. */
  datatype Verdict = Valid | Violated(slot: SlotName, message: string)

  const UnrecognizedDuration := "I did not recognize that, what is the expected duration of the meeting?"
  const UnrecognizedTime := "I did not recognize that, what time would you like to book your meeting?"
  const OutsideBusinessHours := "Our business hours are ten a.m. to five p.m.  What time works best for you?"
  const OffTheHalfHour := "We schedule meetings every half hour, what time works best for you?"
  const UnrecognizedDate := "I did not understand that, what date works best for you?"
  const TooSoon := "meetings must be scheduled a day in advance.  Can you try a different date?"
  const OnAWeekend := "Our office is not open on the weekends, can you provide a work day?"

  /** `hour, minute = text.split(':')` then parse_int on both parts; `None` for a part that is not a number. */
  function ClockParts(text: string): (r: Option<(Option<int>, Option<int>)>)
    ensures r.Some? <==> Occurrences(text, ':') == 1
    ensures r.Some? ==> SplitTwo(text, ':').Some? && var (h, m) := SplitTwo(text, ':').value;
                        text == h + ":" + m && r.value == (ParseInt(h), ParseInt(m))
  {
    SplitTwoOccurrences(text, ':');
    match SplitTwo(text, ':')
    case None => None
    case Some((h, m)) => Some((ParseInt(h), ParseInt(m)))
  }

  /**
    The Time checks (validations.py:130-146). Five characters, two numeric
    parts, an hour within business hours and a minute on the hour or half
    hour; text without exactly one colon makes the unpacking raise.
   */
  function ValidateTime(text: string): (r: Result<Verdict, Exception>)
    ensures |text| != 5 ==> r == Success(Violated(Time, UnrecognizedTime))
    ensures r.Failure? <==> |text| == 5 && Occurrences(text, ':') != 1
    ensures r.Failure? ==> r.error == ValueError
    ensures r.Success? && r.value.Violated? ==> r.value.slot == Time
    ensures |text| == 5 && ClockParts(text).Some? ==>
              var (hour, minute) := ClockParts(text).value;
              && (hour.None? || minute.None? ==> r == Success(Violated(Time, UnrecognizedTime)))
              && (hour.Some? && minute.Some? && (hour.value < 10 || hour.value > 16)
                  ==> r == Success(Violated(Time, OutsideBusinessHours)))
              && ((hour.Some? && minute.Some? && 10 <= hour.value <= 16 && minute.value != 0 && minute.value != 30)
                  ==> r == Success(Violated(Time, OffTheHalfHour)))
              && ((hour.Some? && minute.Some? && 10 <= hour.value <= 16 && (minute.value == 0 || minute.value == 30))
                  ==> r == Success(Valid))
  {
    SplitTwoOccurrences(text, ':');
    if |text| != 5 then Success(Violated(Time, UnrecognizedTime))
    else
      match ClockParts(text)
      case None => Failure(ValueError)
      case Some((hour, minute)) =>
        if hour.None? || minute.None? then Success(Violated(Time, UnrecognizedTime))
        else if hour.value < 10 || hour.value > 16 then Success(Violated(Time, OutsideBusinessHours))
        else if minute.value != 30 && minute.value != 0 then Success(Violated(Time, OffTheHalfHour))
        else Success(Valid)
  }

  /** The Date checks (validations.py:148-154); the answers of the date libraries come in as `info`. */
  function ValidateDate(info: DateInfo): (r: Result<Verdict, Exception>)
    ensures r == Success(Valid) <==> info.Parsed? && info.matchesYmd && info.afterToday && info.weekday < Saturday
    ensures r.Failure? <==> info.Parsed? && !info.matchesYmd
    ensures r.Failure? ==> r.error == ValueError
    ensures info.Unparseable? ==> r == Success(Violated(Date, UnrecognizedDate))
    ensures info.Parsed? && info.matchesYmd && !info.afterToday ==> r == Success(Violated(Date, TooSoon))
    ensures info.Parsed? && info.matchesYmd && info.afterToday && info.weekday >= Saturday
            ==> r == Success(Violated(Date, OnAWeekend))
  {
    match info
    case Unparseable => Success(Violated(Date, UnrecognizedDate))
    case Parsed(matchesYmd, afterToday, weekday) =>
      if !matchesYmd then Failure(ValueError)
      else if !afterToday then Success(Violated(Date, TooSoon))
      else if weekday == Saturday || weekday == Sunday then Success(Violated(Date, OnAWeekend))
      else Success(Valid)
  }

  /**
    The whole validation, in the source's order: the Duration rule, then
    the Time checks, then the Date checks; the first failure wins.
   */
  function Validate(slots: Slots, dateOf: string -> DateInfo): (r: Result<Verdict, Exception>)
    ensures Filled(slots.meetingType) && !Filled(slots.duration) ==> r == Success(Violated(Duration, UnrecognizedDuration))
    ensures r == Success(Valid) <==>
              && !(Filled(slots.meetingType) && !Filled(slots.duration))
              && (Filled(slots.time) ==> ValidateTime(slots.time.value) == Success(Valid))
              && (Filled(slots.date) ==> ValidateDate(dateOf(slots.date.value)) == Success(Valid))
    ensures (!(Filled(slots.meetingType) && !Filled(slots.duration)) && Filled(slots.time)
             && ValidateTime(slots.time.value) != Success(Valid))
            ==> r == ValidateTime(slots.time.value)
    ensures (!(Filled(slots.meetingType) && !Filled(slots.duration))
             && (Filled(slots.time) ==> ValidateTime(slots.time.value) == Success(Valid)) && Filled(slots.date))
            ==> r == ValidateDate(dateOf(slots.date.value))
    ensures r.Success? && r.value.Violated? ==> r.value.slot in {Duration, Time, Date}
    ensures r.Failure? ==> r.error == ValueError
  {
    if Filled(slots.meetingType) && !Filled(slots.duration) then Success(Violated(Duration, UnrecognizedDuration))
    else
      var timeVerdict :- if Filled(slots.time) then ValidateTime(slots.time.value) else Success(Valid);
      if timeVerdict != Valid then Success(timeVerdict)
      else if Filled(slots.date) then ValidateDate(dateOf(slots.date.value))
      else Success(Valid)
  }

  /** Every stored grid text passes the Time checks. */
  lemma GridTextPasses(t: G.Time)
    requires G.OnGrid(t)
    ensures ValidateTime(G.Format(t)) == Success(Valid)
  {
    G.FormatLength(t);
    ClockPartsOfFormat(t);
  }

  lemma ClockPartsOfFormat(t: G.Time)
    ensures ClockParts(G.Format(t)) == Some((Some(t.hour as int), Some(G.Minute(t) as int)))
  {
    G.SplitFormat(t);
    ParseDecimal(t.hour);
    G.ParseMinuteText(t);
  }

  /** A text that passes the Time checks reads as a bookable grid time. */
  lemma PassingTextIsGridTime(text: string)
    requires ValidateTime(text) == Success(Valid)
    ensures SplitTwo(text, ':').Some?
    ensures var (h, m) := SplitTwo(text, ':').value;
            exists t :: G.OnGrid(t) && ParseInt(h) == Some(t.hour as int) && ParseInt(m) == Some(G.Minute(t) as int)
  {
    var (h, m) := SplitTwo(text, ':').value;
    var hour := ParseInt(h).value;
    var minute := ParseInt(m).value;
    var t := G.Time(hour, minute == 30);
    assert G.OnGrid(t);
  }
}

=== FILE: wrappers.dfy ===
/** Failure-compatible datatypes shared by every module of the model. */
module Wrappers {

  /** A value that may be absent: an unset slot, or a Python call that raised. */
  datatype Option<+T> = None | Some(value: T)

  /** The outcome of an operation that can raise: its value, or the exception. */
  datatype Result<+T, +E> = Success(value: T) | Failure(error: E) {

    predicate IsFailure() {
      Failure?
    }

    function PropagateFailure<U>(): Result<U, E>
      requires Failure?
    {
      Failure(error)
    }

    function Extract(): T
      requires Success?
    {
      value
    }
  }

  /** `f` on every element in turn, stopping at the first that fails. */
  function MapAll<A, B, E>(f: A -> Result<B, E>, xs: seq<A>): (r: Result<seq<B>, E>)
    ensures r.Success? <==> forall i :: 0 <= i < |xs| ==> f(xs[i]).Success?
    ensures r.Success? ==> |r.value| == |xs| && forall i :: 0 <= i < |xs| ==> f(xs[i]) == Success(r.value[i])
    ensures r.Failure? ==> exists i :: 0 <= i < |xs| && f(xs[i]) == Failure(r.error) && forall j :: 0 <= j < i ==> f(xs[j]).Success?
  {
    if |xs| == 0 then Success([])
    else
      var head :- f(xs[0]);
      var tail :- MapAll(f, xs[1..]);
      Success([head] + tail)
  }
}

/** The exceptions the handler can raise; a raised exception ends the turn. */
module Exceptions {

  datatype Exception =
    | ValueError                        // int() of a non-number, bad unpacking, list.remove of a missing item
    | KeyError                          // dict lookup of an absent key
    | IndexError                        // a list index past the end
    | AttributeError                    // a string method called on an unset (None) slot
    | UnsupportedDuration(minutes: int) // is_available with a duration other than 30 or 60
    | UnsupportedIntent(name: string)   // dispatch of an intent other than ScheduleMeeting
}
